=== FILE: README.md ===
# KDE Linux package scripts, modelled in Dafny

KDE Linux builds part of its desktop from source. Three Python scripts turn
the build orchestrator's project report (kde-builder's `project-info` query)
and the distro-dependency dataset (`arch.yaml` of repo-metadata) into
something a builder can use:

- `make-pkgbuilds.py` writes one PKGBUILD per project. It skips a project
  that is ignored or third-party. It resolves the project's dependencies,
  plans a CMake build and fails the whole run on the first unusable project.
- `make-packages.py` is its older variant. A project the dataset does not
  list is skipped rather than fatal. Internal dependencies always become
  package names. Distro dependencies are not filtered. There are no virtual
  packages. The build plan has no default and no parallelism.
- `make-spaghetti.py` is the aggregator. It collects one deduplicated set of
  distro packages, the build-time subset of it and the ordered list of
  projects to build. It then asks pacman to install the set and kde-builder
  to build the list. Here the force list means *not* third-party.

The model keeps each script's decisions as pure functions over immutable
data:

- A project report is a sequence of `(name, ProjectInfo)` pairs, in Python's
  dict iteration order.
- A dataset maps a project to an `Entry`: either `Empty` (a falsy YAML
  value) or `Present` dependency lists.
- Each script's whole run is a function returning `Result`. `Err` carries
  the condition that would have raised the exception.

Modules:

| module | file | holds |
|---|---|---|
| `Results` | results.dfy | `Option`, `Result`, the run errors |
| `Text` | text.dfy | `startswith`, `str.join`, `str(int)`, `to_bash_array` and a reader for it, the `kde:` locator expansion |
| `Metadata` | metadata.dfy | the report and dataset records, the candidate filter, the entry check, list filtering |
| `Classify` | classify.dfy | the generators' third-party rule and `package_name` |
| `Cmake` | cmake.dfy | `package_command` and the configure head |
| `Manifests` | manifests.dfy | the PKGBUILD record, its lines, a reader for its array lines |
| `MakePkgbuilds`, `MakePackages`, `MakeSpaghetti` | make_pkgbuilds.dfy, make_packages.dfy, make_spaghetti.dfy | one script each |

The two generators share some code:

- `package_name`, `to_bash_array` and `package_command` have the same
  body in both scripts (`to_bash_array` is annotated to take a set as well
  in make-pkgbuilds.py). The model defines them once, in `Classify`, `Text`
  and `Cmake`, and the table cites `make-pkgbuilds.py` for them. Their
  copies sit at `make-packages.py:54-64` and `86-91`.
- The third-party rule has the same form in both, at
  `make-pkgbuilds.py:147-151` and `make-packages.py:120-124`.
- The PKGBUILD template has the same layout in both, and `Manifests`
  models that layout once. The field values differ. make-pkgbuilds.py
  fills the template from the entry `arch_deps` and appends the project's
  virtual packages to `provides` (line 216). make-packages.py fills it from
  `deps` and provides only the entry's `replaces` (line 181). Each
  script's `Step` builds its own `Manifest` value with its own fields.

## Model

| member | source | states |
|---|---|---|
| `Text.ToBashArray` | make-pkgbuilds.py:85-86 | An empty list renders as the empty string and only then. A non-empty one starts and ends with a double quote. |
| `Text.BashArrayRoundTrip` | make-pkgbuilds.py:85-86 | Take elements without double quotes. Reading their rendering back as a bash array gives the same elements in the same order. |
| `Text.DecimalString` | make-pkgbuilds.py:104 | `str(n)` of a natural number is a non-empty run of decimal digits with no leading zero. |
| `Text.DecimalRoundTrip` | make-pkgbuilds.py:104 | The digits `str(n)` writes denote `n`. |
| `Text.ExpandLocatorIdentity` | make-pkgbuilds.py:180 | A repository locator without `kde:` is left unchanged by the replacement. |
| `Text.ExpandShortLocator` | make-pkgbuilds.py:180 | When `path` holds no further `kde:`, `kde:path` becomes `https://invent.kde.org/path`. |
| `Text.ExpandLocatorSplit` | make-pkgbuilds.py:180 | Every `kde:` is replaced, not only the first. The first `kde:` after a stretch free of it becomes `https://invent.kde.org/`, and the replacement carries on through the rest of the locator. |
| `Metadata.Candidates` | make-pkgbuilds.py:167-169 | The projects the loop goes on with are exactly the reported ones that are neither ignored nor third-party, and no more than were reported. |
| `Metadata.CandidatesAppend` | make-pkgbuilds.py:167-169 | The candidates of a report made of two halves are the first half's candidates followed by the second half's. |
| `Metadata.Without` | make-pkgbuilds.py:187 | Filtering never lengthens the list. |
| `Metadata.WithoutMembership` | make-pkgbuilds.py:187 | The filtered list holds exactly the members of the input that are not in the ignore set. |
| `Metadata.WithoutNothingDropped` | make-pkgbuilds.py:187 | When no member is in the ignore set, the filter returns its input unchanged. |
| `Metadata.WithoutAppend` | make-pkgbuilds.py:187 | Filtering a concatenation gives the filtered halves, concatenated in the same order. |
| `Classify.NonKdeNamesMembership` | make-pkgbuilds.py:147-150 | The comprehension's names are exactly the reported projects whose repository does not start with `kde:`. |
| `Classify.ThirdPartyProjects` | make-pkgbuilds.py:147-151 | A project is third-party exactly when its repository is outside `kde:` or it is force-listed. |
| `Classify.ProjectOfPackage` | make-pkgbuilds.py:82 | Any name it accepts is the `kde-banana-…-git` name of the project it returns. |
| `Classify.FirstPartyNameRoundTrip` | make-pkgbuilds.py:82 | The project can be read back from its namespaced package name. |
| `Classify.FirstPartyNameInjective` | make-pkgbuilds.py:82 | Two projects with the same namespaced package name are the same project. |
| `Manifests.ArrayLineRoundTrip` | make-pkgbuilds.py:213 | A `key=(…)` line written with `to_bash_array` reads back as the same list. |
| `Manifests.ArrayFieldsRoundTrip` | make-pkgbuilds.py:213-218 | Take a manifest whose array elements contain no double quote. Its `depends`, `makedepends`, `provides`, `conflicts` and `replaces` lines read back as the manifest's own lists, elements and order alike. |
| `Manifests.Render` | make-pkgbuilds.py:199-227 | The PKGBUILD text opens and closes with a newline. |
| `Manifests.RenderLine` | make-pkgbuilds.py:199-227 | Every template line except the blank first and last stands in the text between two newlines, with the lines before it and after it joined around it. |
| `MakePkgbuilds.BuildCommand` | make-pkgbuilds.py:89-109 | The plan exists exactly when the options are empty or hold `cmake-options`, and otherwise fails naming the options. It has two commands. The first joins the head, every extra flag and the option string with line continuations. The second runs `cpu_count() + 1` parallel jobs. |
| `MakePkgbuilds.ConfigureCommandLayout` | make-pkgbuilds.py:96-103 | The configure step is the head, a continuation, the extra flags in order, a continuation and the project's options. |
| `MakePkgbuilds.ParallelJobs` | make-pkgbuilds.py:104 | The text after `--parallel ` is all digits and denotes one more than the processor count. |
| `MakePkgbuilds.EmptyOptionsDefault` | make-pkgbuilds.py:90-116 | With empty options the build plan succeeds with an empty option string. Because the default is stored back into the project info, the package step then succeeds too. |
| `MakePkgbuilds.ForeignOptionsFail` | make-pkgbuilds.py:94-118 | Non-empty options without `cmake-options` make both the build and the package step fail. |
| `MakePkgbuilds.EdgeTokens` | make-pkgbuilds.py:189-197 | One internal dependency fails exactly when it is not ignored, is third-party and has an empty dataset entry. The failure names that dependency. |
| `MakePkgbuilds.InternalEdges` | make-pkgbuilds.py:189-197 | Appending the internal dependencies succeeds exactly when every single dependency's contribution does. A failure is the failure of one of the listed dependencies. |
| `MakePkgbuilds.InternalEdgesSingle` | make-pkgbuilds.py:189-197 | A one-element dependency list contributes exactly that dependency's tokens, or fails with its error. |
| `MakePkgbuilds.InternalEdgesAppend` | make-pkgbuilds.py:189-197 | The edges of a dependency list split in two are the first half's tokens followed by the second half's. The list fails exactly when a half does. With the single-element case this fixes the value: each dependency's tokens, in listed order. |
| `MakePkgbuilds.InternalEdgesFirstFailure` | make-pkgbuilds.py:189-197 | When appending fails, the error is that of the first listed dependency whose contribution fails. Every dependency before it contributes successfully. |
| `MakePkgbuilds.ResolveFirstFailure` | make-pkgbuilds.py:187-197 | A failed resolution reports the first failing internal dependency's error. |
| `MakePkgbuilds.ResolveDepends` | make-pkgbuilds.py:187-197 | Resolution succeeds exactly when every internal edge does. The result is the filtered distro depends, in order, followed by exactly the internal edges. A failure names a listed, non-ignored, third-party dependency whose entry is empty. |
| `MakePkgbuilds.InternalEdgesMembership` | make-pkgbuilds.py:189-197 | A name is among the appended dependencies exactly when some internal dependency contributes it. |
| `MakePkgbuilds.ResolvedDependsMembership` | make-pkgbuilds.py:187-197 | A resolved dependency is a non-ignored distro dependency or a token some internal dependency contributes, and nothing else. |
| `MakePkgbuilds.EdgeContributions` | make-pkgbuilds.py:189-197 | Resolution fails exactly when a non-ignored third-party dependency has an empty dataset entry. Otherwise a third-party dependency with an entry brings every name it replaces, and any other non-ignored dependency brings its package name. |
| `MakePkgbuilds.IgnoredEdgeDropped` | make-pkgbuilds.py:189-191 | Inserting an ignored dependency anywhere in the list changes nothing. |
| `MakePkgbuilds.ThirdPartyEdgeScenario` | make-pkgbuilds.py:187-197 | Take a project needing `libfoo-dev` and the third-party `bar`, whose entry replaces `provides-bar`. It depends on exactly `libfoo-dev` and `provides-bar`. |
| `MakePkgbuilds.Step` | make-pkgbuilds.py:167-226 | An ignored or third-party project is skipped, and only those are. A project without a usable entry stops the run with that error. Otherwise the manifest is named `kde-banana-<project>-git`, versioned by the commit or `local`, and fetched from the expanded locator. It depends on the resolved list and provides the entry's `replaces` plus its virtual packages. It conflicts with and replaces exactly the entry's `replaces`. It is built by the CMake plan and installs with `cmake --install build`. |
| `MakePkgbuilds.StepOutcome` | make-pkgbuilds.py:167-226 | The loop gets past a project exactly when the project is skipped, or it has a non-empty entry, its dependencies resolve and its options give a build plan. |
| `MakePkgbuilds.StepErrors` | make-pkgbuilds.py:89-118 | A project with a usable entry whose dependencies fail to resolve stops the run with the resolution error. One whose dependencies resolve but whose options are not CMake's stops it with the build-command error naming its options. |
| `MakePkgbuilds.DependencyUsesPkgbase` | make-pkgbuilds.py:189-202 | When a project and a first-party dependency of it both get manifests, the project's `depends` names the dependency's own `pkgbase`. |
| `MakePkgbuilds.Generate` | make-pkgbuilds.py:167-178 | A successful loop yields one manifest per candidate, in iteration order, and every candidate had a usable entry. Every manifest's pkgbase and pkgname are the namespaced project name. |
| `MakePkgbuilds.GenerateOk` | make-pkgbuilds.py:167-178 | The loop succeeds exactly when every project's iteration does. |
| `MakePkgbuilds.GenerateFirstFailure` | make-pkgbuilds.py:167-178 | A failed loop reports the error of the first project whose iteration fails. Every project before it passed. |
| `MakePkgbuilds.GenerateManifests` | make-pkgbuilds.py:167-226 | Every manifest of a successful loop is the one its own project's iteration describes: namespaced name, version, locator, resolved depends, provides with virtual packages, conflicts, replaces, build plan and package step. |
| `MakePkgbuilds.Run` | make-pkgbuilds.py:147-226 | A run succeeds exactly when every reported project is skipped or has a non-empty entry, resolvable dependencies and a build plan. A failed run reports the first failing project's error. A successful run yields manifests for exactly the reported projects that are not ignored, have a `kde:` repository and are not force-listed, each as its iteration describes it, with pkgbase and pkgname `kde-banana-<project>-git`. |
| `MakePackages.BuildCommand` | make-packages.py:67-83 | The plan exists exactly when the options hold `cmake-options`, so even empty options fail. It is the head, the extra flags and the options joined by single spaces, then a plain `cmake --build build`. |
| `MakePackages.InternalNames` | make-packages.py:158-162 | With no ignored dependency, the appended names are the package names of the dependencies, one for one. |
| `MakePackages.InternalNamesMembership` | make-packages.py:158-162 | A name is appended exactly when it is the package name of some non-ignored internal dependency. |
| `MakePackages.InternalNamesAppend` | make-packages.py:158-162 | The names of a dependency list split in two are the first half's names followed by the second half's. |
| `MakePackages.InternalNamesOfKept` | make-packages.py:158-162 | The appended names are, one for one and in listed order, the package names of the dependencies left once the ignored ones are dropped. |
| `MakePackages.ResolveDepends` | make-packages.py:157-162 | The dependency list is the dataset's depends, unfiltered and in order, followed by exactly the internal names. |
| `MakePackages.EdgeContributions` | make-packages.py:157-162 | A non-ignored third-party dependency appears under its raw name and any other non-ignored one under its namespaced name. Nothing but the dataset's depends and those names appears. |
| `MakePackages.Step` | make-packages.py:136-190 | An ignored or third-party project, or one the dataset does not list, is skipped, and only those are. An empty entry stops the run with "missing dependencies". Options without `cmake-options` stop it with a build error. Otherwise the manifest is namespaced and provides, conflicts with and replaces exactly the entry's `replaces`. |
| `MakePackages.StepOutcome` | make-packages.py:136-190 | The loop gets past a project exactly when the project is skipped, or its entry is non-empty and its options hold `cmake-options`. |
| `MakePackages.StepErrors` | make-packages.py:67-83 | A listed project with a non-empty entry but without `cmake-options` stops the run with the build-command error naming its options. |
| `MakePackages.Listed` | make-packages.py:140-142 | The projects kept are exactly those the dataset lists. |
| `MakePackages.Generate` | make-packages.py:136-148 | On success every candidate the dataset lists had a non-empty entry, and every manifest is namespaced. The only failures are an empty entry of a listed project and a non-CMake build. |
| `MakePackages.GenerateProjects` | make-packages.py:136-148 | A successful loop yields one manifest per candidate the dataset lists, in iteration order. |
| `MakePackages.GenerateOk` | make-packages.py:136-148 | The loop succeeds exactly when every project's iteration does. |
| `MakePackages.GenerateFirstFailure` | make-packages.py:136-148 | A failed loop reports the error of the first project whose iteration fails. Every project before it passed. |
| `MakePackages.GenerateManifests` | make-packages.py:136-190 | Every manifest of a successful loop is the one its own project's iteration describes: namespaced pkgbase and pkgname, version, locator, resolved depends, provides, conflicts and replaces from the entry, build plan and package step. |
| `MakePackages.Run` | make-packages.py:120-190 | A run succeeds exactly when every reported project is skipped, unlisted, or has a non-empty entry and CMake options, so a project the dataset does not list never decides the outcome. A failed run reports the first failing project's error, never a missing entry. A successful run yields one manifest for each reported, non-ignored, `kde:`, non-forced project the dataset lists, and no other, in iteration order, each as its iteration describes it, with pkgbase and pkgname `kde-banana-<project>-git`. |
| `MakePackages.ShippedSkips` | make-packages.py:32-46 | With the shipped lists, an ignored project and a force-listed one produce no manifest and cannot fail the run, whatever their entries. |
| `MakeSpaghetti.ThirdPartyProjects` | make-spaghetti.py:140-145 | A force-listed project is never third-party here. The list is no longer than the report. |
| `MakeSpaghetti.ThirdPartyMembership` | make-spaghetti.py:140-145 | A project is third-party exactly when its repository is outside `kde:` and it is not force-listed. |
| `MakeSpaghetti.BuildListMembership` | make-spaghetti.py:140-170 | A reported project is built exactly when it is not ignored and either has a `kde:` repository or is force-listed. |
| `MakeSpaghetti.ShippedBuildList` | make-spaghetti.py:43-72 | With the shipped lists, an ignored project is not built and a force-listed one is, whatever its repository. |
| `MakeSpaghetti.Collect` | make-spaghetti.py:168-184 | The loop completes exactly when every project to build has a non-empty entry, and then the build list is exactly those projects in iteration order. A failure is the fault of some project to build. |
| `MakeSpaghetti.CollectFirstFault` | make-spaghetti.py:168-177 | The failure reported is that of the first project to build, in iteration order, whose entry is absent or empty. |
| `MakeSpaghetti.CollectContents` | make-spaghetti.py:179-184 | The accumulated depends hold exactly the projects' depends minus the ignored distro names. The accumulated makedepends hold exactly their makedepends. |
| `MakeSpaghetti.Aggregate` | make-spaghetti.py:137-187 | The checks run in order. An empty project report fails first, then an empty dependency document, then the per-project entry check. A failure there is the fault of the first project to build whose entry is absent or empty. On success, `depends` is the base tools, every filtered depends and every makedepends as one set. `makedepends` is the set of all makedepends and lies inside `depends`. The build list is the projects to build in order. |
| `MakeSpaghetti.InstallArgsCover` | make-spaghetti.py:186-190 | Take any enumeration of the deduplicated set. pacman is asked for every package in the set once and for nothing else. |
| `MakeSpaghetti.BuildArgsTargets` | make-spaghetti.py:168-205 | After a successful aggregation, kde-builder is asked for exactly the projects to build. Each of them has a non-empty dataset entry. |

## Left out

- Process execution is not modelled, and neither are the runs of
  kde-builder, pacman and makepkg. Only the argument vectors handed to
  pacman and kde-builder are modelled. The background `makepkg
  --printsrcinfo` jobs and the `.SRCINFO` files are left out too.
- YAML parsing, the HTTP download of the dataset and every file read and
  write are left out. This covers the PKGBUILD files, the kde-builder
  config rewrite, the `/depsinstalled` marker, the `PATH` change and the
  JSON dump of the result. The report and the dataset enter as parsed
  values.
- Logging and warnings are left out, including the "skipping missing
  project" notice of make-packages.py.
- `multiprocessing.cpu_count()` and the `CI_COMMIT_SHA` variable are
  parameters: `cpus` and `commitSha`.
- The kde-builder target lists and the `--query project-info` call are left
  out, because they only decide what the report contains.
- A present dataset entry is assumed to have its `depends`, `makedepends`,
  `optdepends` and `replaces` keys. A project record is assumed to have
  its `repository`, `dependencies` and `options` keys. The scripts would
  crash with a `KeyError` otherwise; the model treats these as parsing
  concerns.
- A run is modelled as all-or-nothing: `Err` for the whole run. The scripts
  write earlier PKGBUILDs before a later project raises. The model makes
  no claim about that partial output.
- The manifest text is modelled as its template lines (`Manifests.Lines`)
  joined by newlines (`Manifests.Render`). The read-back is proved per
  array line, and `Manifests.RenderLine` places each line in the text.
  Reading the whole text back line by line is not modelled, because the
  optdepends body and the build commands may themselves contain newlines.
- `Manifests.ArrayFieldsRoundTrip` requires array elements without double
  quotes. `to_bash_array` does not escape quotes, so an element holding one
  would not read back as itself.
- The build-command and package-command errors carry the project's
  options, not its whole record. The exception messages at
  make-pkgbuilds.py:109 and 118 and make-packages.py:83 and 91 print the
  whole record. The options are the part that decides the failure.
- make-pkgbuilds.py:193-194 reads the `replaces` of a third-party
  dependency's entry. Python crashes when that entry is empty. The model
  reports `DatasetEntryUnusable` for the dependency instead.
- make-spaghetti.py:157 applies `len` to the whole dataset document. The
  model takes the document's project table as `Option<Dataset>`, with
  `None` for an empty document. A non-empty document without a `projects`
  key would crash with a `KeyError` and is not modelled.
- make-spaghetti.py:186-187 produces lists from Python sets in an
  unspecified order. The model keeps the sets as sets. The pacman vector
  takes a `listing`, and `MakeSpaghetti.InstallArgsCover` holds for every
  listing that enumerates the set.
- make-spaghetti.py also defines `VIRTUAL_PACKAGES` and
  `EXTRA_CMAKE_OPTIONS` but never reads them, so they are not modelled.
- The generators do not check for an empty report. An empty mapping yields
  no manifests, in Python and in the model. An empty YAML document makes
  Python crash on `None.items()`. The model has no value for that case.

=== FILE: classify.dfy ===
/**
  Third-party classification and package naming as the two manifest
  generators (make-pkgbuilds.py and its older variant make-packages.py)
  do it; the two scripts carry the same text for both.
 */
module Classify {
  import opened Results
  import opened Text
  import opened Metadata

  /** Some reported project called `p` lives outside the project's own forge. */
  predicate HasNonKdeRepository(ps: Projects, p: string) {
    exists i :: 0 <= i < |ps| && ps[i].0 == p && !StartsWith(ps[i].1.repository, KdeScheme)
  }

  /** The reported projects whose repository does not start with `kde:`, in iteration order. */
  function NonKdeNames(ps: Projects): (r: seq<string>)
    ensures |r| <= |ps|
  {
    if |ps| == 0 then []
    else
      (if !StartsWith(ps[0].1.repository, KdeScheme) then [ps[0].0] else []) + NonKdeNames(ps[1..])
  }

  lemma {:induction false} NonKdeNamesMembership(ps: Projects)
    ensures forall p :: p in NonKdeNames(ps) <==> HasNonKdeRepository(ps, p)
    decreases |ps|
  {
    if |ps| > 0 {
      NonKdeNamesMembership(ps[1..]);
      forall p
        ensures HasNonKdeRepository(ps, p) <==> HasNonKdeRepository(ps[1..], p)
                                                || (ps[0].0 == p && !StartsWith(ps[0].1.repository, KdeScheme))
      {
        if HasNonKdeRepository(ps, p) {
          var i :| 0 <= i < |ps| && ps[i].0 == p && !StartsWith(ps[i].1.repository, KdeScheme);
          if i > 0 {
            assert ps[1..][i - 1] == ps[i];
          }
        }
        if HasNonKdeRepository(ps[1..], p) {
          var i :| 0 <= i < |ps[1..]| && ps[1..][i].0 == p && !StartsWith(ps[1..][i].1.repository, KdeScheme);
          assert ps[i + 1] == ps[1..][i];
        }
      }
    }
  }

  /**
    `third_party_projects` of the generators: the projects reported with a
    repository outside `kde:`, followed by the force list.
   */
  function ThirdPartyProjects(ps: Projects, force: seq<string>): (r: seq<string>)
    ensures forall p :: p in r <==> HasNonKdeRepository(ps, p) || p in force
  {
    NonKdeNamesMembership(ps);
    NonKdeNames(ps) + force
  }

  /** The package name of a project built here. */
  function FirstPartyName(p: string): string {
    "kde-banana-" + p + "-git"
  }

  /** `package_name`: third-party projects keep their name, the others are namespaced. */
  function PackageName(p: string, thirdParty: seq<string>): (r: string)
    ensures p in thirdParty ==> r == p
    ensures p !in thirdParty ==> r == FirstPartyName(p)
  {
    if p in thirdParty then p else FirstPartyName(p)
  }

  /** Recovers the project a first-party package name was made from. */
  function ProjectOfPackage(s: string): (r: Option<string>)
    ensures r.Some? ==> FirstPartyName(r.value) == s
  {
    var prefix := "kde-banana-";
    var suffix := "-git";
    if |s| >= |prefix| + |suffix| && s[..|prefix|] == prefix && s[|s| - |suffix|..] == suffix then
      var p := s[|prefix|..|s| - |suffix|];
      assert s == prefix + p + suffix;
      Some(p)
    else None
  }

  /**
    The namespaced name determines the project: the transform is invertible,
    so two different first-party projects never share a package name.
   */
  lemma FirstPartyNameRoundTrip(p: string)
    ensures ProjectOfPackage(FirstPartyName(p)) == Some(p)
  {
  }

  lemma FirstPartyNameInjective(p: string, q: string)
    requires FirstPartyName(p) == FirstPartyName(q)
    ensures p == q
  {
    FirstPartyNameRoundTrip(p);
    FirstPartyNameRoundTrip(q);
  }
}

=== FILE: cmake.dfy ===
/**
  The parts of the CMake build plan that the two manifest generators share.
 */
module Cmake {
  import opened Results

  /** The only build-system kind the scripts recognise. */
  const CmakeOptionsKey: string := "cmake-options"

  /** Start of the configure invocation for a project checked out under its own name. */
  function ConfigureHead(project: string): string {
    "cmake -B build -S \"" + project + "\""
  }

  /** `package_command`: install from the build tree, or fail when the options are not CMake's. */
  function PackageCommand(options: map<string, string>): (r: Result<string>)
    ensures r.Ok? <==> CmakeOptionsKey in options
    ensures r.Ok? ==> r.value == "cmake --install build"
    ensures r.Err? ==> r.error == NoPackageCommand(options)
  {
    if CmakeOptionsKey in options then Ok("cmake --install build")
    else Err(NoPackageCommand(options))
  }
}

=== FILE: make_packages.dfy ===
/**
  make-packages.py, the older manifest generator. It has the shape of
  make-pkgbuilds.py with looser rules: a project the dataset does not list
  is skipped rather than fatal, internal dependencies always become package
  names (no `replaces` substitution), distro dependencies are not filtered,
  there are no virtual packages, and the build plan has no default for empty
  options and no parallelism flag.
 */
module MakePackages {
  import opened Results
  import opened Text
  import opened Metadata
  import opened Classify
  import opened Cmake
  import opened Manifests

  /** The script's configuration lists. */
  datatype Config = Config(
    ignoreProjects: seq<string>,
    forceThirdParty: seq<string>,
    extraCmakeOptions: string)          // one string of configure flags

  /** The values make-packages.py ships with. */
  const Settings: Config := Config(
    ["selenium-webdriver-at-spi", "plasma-nano", "packagekit-qt"],
    ["taglib", "zxing-cpp"],
    "-G Ninja -DCMAKE_INSTALL_PREFIX=/usr -DCMAKE_BUILD_TYPE=RelWithDebInfo")

  /**
    `build_command`: the configure step as one line, head, flags and the
    project's option string separated by single spaces, then a plain build
    step. Without a CMake option string, even for empty options, it fails.
   */
  function BuildCommand(project: string, options: map<string, string>, extra: string): (r: Result<seq<string>>)
    ensures r.Ok? <==> CmakeOptionsKey in options
    ensures |options| == 0 ==> r == Err(NoBuildCommand(options))
    ensures r.Err? ==> r.error == NoBuildCommand(options)
    ensures r.Ok? ==> r.value == [ConfigureHead(project) + " " + extra + " " + options[CmakeOptionsKey], "cmake --build build"]
  {
    if CmakeOptionsKey in options then
      var parts := [ConfigureHead(project), extra, options[CmakeOptionsKey]];
      assert parts[1..] == [extra, options[CmakeOptionsKey]] && parts[1..][1..] == [options[CmakeOptionsKey]];
      assert Join(" ", parts[1..]) == extra + " " + options[CmakeOptionsKey];
      assert Join(" ", parts) == ConfigureHead(project) + " " + (extra + " " + options[CmakeOptionsKey]);
      assert ConfigureHead(project) + " " + (extra + " " + options[CmakeOptionsKey])
          == ConfigureHead(project) + " " + extra + " " + options[CmakeOptionsKey];
      Ok([Join(" ", parts), "cmake --build build"])
    else Err(NoBuildCommand(options))
  }

  /** The package names of the non-ignored internal dependencies, in listed order. */
  function InternalNames(ignore: seq<string>, thirdParty: seq<string>, deps: seq<string>): (r: seq<string>)
    ensures |r| <= |deps|
    ensures (forall i :: 0 <= i < |deps| ==> deps[i] !in ignore) ==>
              |r| == |deps| && forall i :: 0 <= i < |deps| ==> r[i] == PackageName(deps[i], thirdParty)
  {
    if |deps| == 0 then []
    else (if deps[0] in ignore then [] else [PackageName(deps[0], thirdParty)]) + InternalNames(ignore, thirdParty, deps[1..])
  }

  lemma {:induction false} InternalNamesMembership(ignore: seq<string>, thirdParty: seq<string>, deps: seq<string>)
    ensures forall i :: 0 <= i < |deps| && deps[i] !in ignore ==>
              PackageName(deps[i], thirdParty) in InternalNames(ignore, thirdParty, deps)
    ensures forall x :: x in InternalNames(ignore, thirdParty, deps) ==>
              exists i :: 0 <= i < |deps| && deps[i] !in ignore && x == PackageName(deps[i], thirdParty)
    decreases |deps|
  {
    if |deps| > 0 {
      var r := InternalNames(ignore, thirdParty, deps);
      var tail := InternalNames(ignore, thirdParty, deps[1..]);
      assert r == (if deps[0] in ignore then [] else [PackageName(deps[0], thirdParty)]) + tail;
      InternalNamesMembership(ignore, thirdParty, deps[1..]);
      forall i | 0 <= i < |deps| && deps[i] !in ignore
        ensures PackageName(deps[i], thirdParty) in r
      {
        if i > 0 {
          assert deps[1..][i - 1] == deps[i];
        }
      }
      forall x | x in r
        ensures exists i :: 0 <= i < |deps| && deps[i] !in ignore && x == PackageName(deps[i], thirdParty)
      {
        if x in tail {
          var j :| 0 <= j < |deps[1..]| && deps[1..][j] !in ignore && x == PackageName(deps[1..][j], thirdParty);
          assert deps[j + 1] == deps[1..][j];
        }
      }
    }
  }

  /** The names of a split dependency list are the names of each half, in listed order. */
  lemma {:induction false} InternalNamesAppend(ignore: seq<string>, thirdParty: seq<string>, a: seq<string>, b: seq<string>)
    ensures InternalNames(ignore, thirdParty, a + b) == InternalNames(ignore, thirdParty, a) + InternalNames(ignore, thirdParty, b)
    decreases |a|
  {
    if |a| == 0 {
      assert a + b == b;
    } else {
      assert (a + b)[0] == a[0] && (a + b)[1..] == a[1..] + b;
      InternalNamesAppend(ignore, thirdParty, a[1..], b);
    }
  }

  /**
    The appended names are the package names of the dependencies left after
    dropping the ignored ones, one for one and in listed order.
   */
  lemma {:induction false} InternalNamesOfKept(ignore: seq<string>, thirdParty: seq<string>, deps: seq<string>)
    ensures |InternalNames(ignore, thirdParty, deps)| == |Without(deps, ToSet(ignore))|
    ensures forall i :: 0 <= i < |Without(deps, ToSet(ignore))| ==>
              InternalNames(ignore, thirdParty, deps)[i] == PackageName(Without(deps, ToSet(ignore))[i], thirdParty)
    decreases |deps|
  {
    if |deps| > 0 {
      InternalNamesOfKept(ignore, thirdParty, deps[1..]);
      var kept := Without(deps[1..], ToSet(ignore));
      var names := InternalNames(ignore, thirdParty, deps[1..]);
      if deps[0] in ignore {
        assert Without(deps, ToSet(ignore)) == kept;
        assert InternalNames(ignore, thirdParty, deps) == names;
      } else {
        assert Without(deps, ToSet(ignore)) == [deps[0]] + kept;
        assert InternalNames(ignore, thirdParty, deps) == [PackageName(deps[0], thirdParty)] + names;
        forall i | 1 <= i < |kept| + 1
          ensures ([PackageName(deps[0], thirdParty)] + names)[i] == PackageName(([deps[0]] + kept)[i], thirdParty)
        {
          assert ([deps[0]] + kept)[i] == kept[i - 1];
        }
      }
    }
  }

  /** A dependency list: the dataset's depends, unfiltered, then the internal dependencies' package names. */
  function ResolveDepends(cfg: Config, thirdParty: seq<string>, d: ArchDeps, deps: seq<string>): (r: seq<string>)
    ensures |d.depends| <= |r| && r[..|d.depends|] == d.depends
    ensures r[|d.depends|..] == InternalNames(cfg.ignoreProjects, thirdParty, deps)
  {
    var r := d.depends + InternalNames(cfg.ignoreProjects, thirdParty, deps);
    assert r[..|d.depends|] == d.depends;
    assert r[|d.depends|..] == InternalNames(cfg.ignoreProjects, thirdParty, deps);
    r
  }

  /**
    Every internal dependency that is not ignored appears under its package
    name, so a third-party one keeps its raw project name; nothing else but
    the dataset's own depends is added.
   */
  lemma EdgeContributions(cfg: Config, thirdParty: seq<string>, d: ArchDeps, deps: seq<string>)
    ensures forall i :: 0 <= i < |deps| && deps[i] !in cfg.ignoreProjects && deps[i] in thirdParty ==>
              deps[i] in ResolveDepends(cfg, thirdParty, d, deps)
    ensures forall i :: 0 <= i < |deps| && deps[i] !in cfg.ignoreProjects && deps[i] !in thirdParty ==>
              FirstPartyName(deps[i]) in ResolveDepends(cfg, thirdParty, d, deps)
    ensures forall x :: x in ResolveDepends(cfg, thirdParty, d, deps) ==>
              x in d.depends || exists i :: 0 <= i < |deps| && deps[i] !in cfg.ignoreProjects
                                             && x == PackageName(deps[i], thirdParty)
  {
    InternalNamesMembership(cfg.ignoreProjects, thirdParty, deps);
    var r := ResolveDepends(cfg, thirdParty, d, deps);
    assert r == d.depends + InternalNames(cfg.ignoreProjects, thirdParty, deps);
    forall i | 0 <= i < |deps| && deps[i] !in cfg.ignoreProjects
      ensures PackageName(deps[i], thirdParty) in r
    {
      assert PackageName(deps[i], thirdParty) in InternalNames(cfg.ignoreProjects, thirdParty, deps);
    }
  }

  /**
    The manifest of a project with a dataset entry: named
    `kde-banana-<project>-git` for both pkgbase and pkgname, versioned by the commit
    or `local`, fetched from the expanded locator, depending on the resolved
    list, providing, conflicting with and replacing exactly the entry's
    `replaces`, built and packaged by the CMake plan.
   */
  predicate Describes(cfg: Config, thirdParty: seq<string>, ds: Dataset, commitSha: Option<string>,
                      name: string, info: ProjectInfo, m: Manifest)
  {
    && name in ds && ds[name].Present?
    && m.pkgbase == FirstPartyName(name) && m.pkgname == m.pkgbase
    && m.pkgver == commitSha.GetOr("local")
    && m.repo == ExpandLocator(info.repository)
    && m.depends == ResolveDepends(cfg, thirdParty, ds[name].deps, info.dependencies)
    && m.makedepends == ds[name].deps.makedepends
    && m.optdepends == ds[name].deps.optdepends
    && m.providing == ds[name].deps.replacing
    && m.conflicts == ds[name].deps.replacing
    && m.replacing == ds[name].deps.replacing
    && BuildCommand(name, info.options, cfg.extraCmakeOptions) == Ok(m.build)
    && m.package == "cmake --install build"
  }

  /**
    The loop gets past the project: it is skipped, or it has a non-empty
    entry and its options are CMake's.
   */
  predicate Usable(cfg: Config, thirdParty: seq<string>, ds: Dataset, name: string, info: ProjectInfo) {
    || name in cfg.ignoreProjects || name in thirdParty || name !in ds
    || (ds[name].Present? && CmakeOptionsKey in info.options)
  }

  /**
    One iteration of the script's loop: skip an ignored or third-party
    project and one the dataset does not list; fail on an empty entry;
    otherwise build the manifest.
   */
  function Step(cfg: Config, thirdParty: seq<string>, ds: Dataset, commitSha: Option<string>,
                name: string, info: ProjectInfo): (r: Result<Option<Manifest>>)
    ensures name in cfg.ignoreProjects || name in thirdParty || name !in ds <==> r == Ok(None)
    ensures name !in cfg.ignoreProjects && name !in thirdParty && name in ds && ds[name].Empty? ==>
      r == Err(MissingDependencies(name))
    ensures r.Err? ==> r.error == MissingDependencies(name) || r.error == NoBuildCommand(info.options)
    ensures r.Ok? && r.value.Some? ==>
      && r.value.value.project == name
      && r.value.value.pkgbase == FirstPartyName(name) && r.value.value.pkgname == FirstPartyName(name)
      && Describes(cfg, thirdParty, ds, commitSha, name, info, r.value.value)
  {
    if name in cfg.ignoreProjects || name in thirdParty || name !in ds then Ok(None)
    else
      match ds[name]
      case Empty => Err(MissingDependencies(name))
      case Present(d) =>
        var depends := ResolveDepends(cfg, thirdParty, d, info.dependencies);
        var build :- BuildCommand(name, info.options, cfg.extraCmakeOptions);
        // a successful build command means the options are CMake's
        var package := PackageCommand(info.options).value;
        var pkgname := PackageName(name, thirdParty);
        Ok(Some(Manifest(
          name, pkgname, pkgname, commitSha.GetOr("local"), ExpandLocator(info.repository),
          depends, d.makedepends, d.optdepends,
          d.replacing, d.replacing, d.replacing,
          build, package)))
  }

  /** The names the dataset lists, in order. */
  function Listed(names: seq<string>, ds: Dataset): (r: seq<string>)
    ensures forall x :: x in r <==> x in names && x in ds
  {
    if |names| == 0 then []
    else (if names[0] in ds then [names[0]] else []) + Listed(names[1..], ds)
  }

  /** The loop gets past a project exactly when the project is usable. */
  lemma StepOutcome(cfg: Config, thirdParty: seq<string>, ds: Dataset, commitSha: Option<string>,
                    name: string, info: ProjectInfo)
    ensures Step(cfg, thirdParty, ds, commitSha, name, info).Ok? <==> Usable(cfg, thirdParty, ds, name, info)
  {
  }

  lemma AllStepOutcomes(cfg: Config, thirdParty: seq<string>, ds: Dataset, commitSha: Option<string>, ps: Projects)
    ensures forall i :: 0 <= i < |ps| ==>
      (Step(cfg, thirdParty, ds, commitSha, ps[i].0, ps[i].1).Ok? <==> Usable(cfg, thirdParty, ds, ps[i].0, ps[i].1))
  {
    forall i | 0 <= i < |ps|
      ensures Step(cfg, thirdParty, ds, commitSha, ps[i].0, ps[i].1).Ok? <==> Usable(cfg, thirdParty, ds, ps[i].0, ps[i].1)
    {
      StepOutcome(cfg, thirdParty, ds, commitSha, ps[i].0, ps[i].1);
    }
  }

  /**
    A listed project with a non-empty entry but options that are not
    CMake's stops the run with the build-command error, never with
    "missing dependencies".
   */
  lemma StepErrors(cfg: Config, thirdParty: seq<string>, ds: Dataset, commitSha: Option<string>,
                   name: string, info: ProjectInfo)
    ensures name !in cfg.ignoreProjects && name !in thirdParty && name in ds && ds[name].Present?
            && CmakeOptionsKey !in info.options ==>
      Step(cfg, thirdParty, ds, commitSha, name, info) == Err(NoBuildCommand(info.options))
  {
  }

  /** `ps[i]` is the first project the loop does not get past, and it fails with `e`. */
  predicate FirstFailureAt(cfg: Config, thirdParty: seq<string>, ds: Dataset, commitSha: Option<string>,
                           ps: Projects, i: int, e: RunError) {
    && 0 <= i < |ps| && Step(cfg, thirdParty, ds, commitSha, ps[i].0, ps[i].1) == Err(e)
    && forall j :: 0 <= j < i ==> Step(cfg, thirdParty, ds, commitSha, ps[j].0, ps[j].1).Ok?
  }

  /** Some reported project's iteration describes `m`. */
  predicate Explained(cfg: Config, thirdParty: seq<string>, ds: Dataset, commitSha: Option<string>,
                      ps: Projects, m: Manifest) {
    exists i :: 0 <= i < |ps| && ps[i].0 == m.project && Describes(cfg, thirdParty, ds, commitSha, ps[i].0, ps[i].1, m)
  }

  lemma ExplainedByTail(cfg: Config, thirdParty: seq<string>, ds: Dataset, commitSha: Option<string>,
                        ps: Projects, m: Manifest)
    requires |ps| > 0 && Explained(cfg, thirdParty, ds, commitSha, ps[1..], m)
    ensures Explained(cfg, thirdParty, ds, commitSha, ps, m)
  {
    var i :| 0 <= i < |ps[1..]| && ps[1..][i].0 == m.project
             && Describes(cfg, thirdParty, ds, commitSha, ps[1..][i].0, ps[1..][i].1, m);
    assert ps[1..][i] == ps[i + 1];
  }

  lemma HeadExplained(cfg: Config, thirdParty: seq<string>, ds: Dataset, commitSha: Option<string>, ps: Projects)
    requires |ps| > 0
    ensures var step := Step(cfg, thirdParty, ds, commitSha, ps[0].0, ps[0].1);
            step.Ok? && step.value.Some? ==> Explained(cfg, thirdParty, ds, commitSha, ps, step.value.value)
  {
    var step := Step(cfg, thirdParty, ds, commitSha, ps[0].0, ps[0].1);
    if step.Ok? && step.value.Some? {
      assert ps[0].0 == step.value.value.project;
    }
  }

  lemma AllExplainedCons(cfg: Config, thirdParty: seq<string>, ds: Dataset, commitSha: Option<string>,
                         ps: Projects, head: seq<Manifest>, rest: seq<Manifest>)
    requires |ps| > 0
    requires forall k :: 0 <= k < |head| ==> Explained(cfg, thirdParty, ds, commitSha, ps, head[k])
    requires forall k :: 0 <= k < |rest| ==> Explained(cfg, thirdParty, ds, commitSha, ps[1..], rest[k])
    ensures forall k :: 0 <= k < |head + rest| ==> Explained(cfg, thirdParty, ds, commitSha, ps, (head + rest)[k])
  {
    forall k | 0 <= k < |head + rest|
      ensures Explained(cfg, thirdParty, ds, commitSha, ps, (head + rest)[k])
    {
      if k >= |head| {
        ExplainedByTail(cfg, thirdParty, ds, commitSha, ps, rest[k - |head|]);
      }
    }
  }

  /** Peeling the first reported project off the listed candidates. */
  lemma ListedCandidatesCons(ignore: seq<string>, thirdParty: seq<string>, ds: Dataset, ps: Projects)
    requires |ps| > 0
    ensures Listed(Candidates(ps, ignore, thirdParty), ds)
         == (if ps[0].0 !in ignore && ps[0].0 !in thirdParty && ps[0].0 in ds then [ps[0].0] else [])
            + Listed(Candidates(ps[1..], ignore, thirdParty), ds)
  {
    var name := ps[0].0;
    var later := Candidates(ps[1..], ignore, thirdParty);
    if name !in ignore && name !in thirdParty {
      assert Candidates(ps, ignore, thirdParty) == [name] + later;
      assert ([name] + later)[1..] == later;
    } else {
      assert Candidates(ps, ignore, thirdParty) == later;
    }
  }

  /** The loop over every reported project, in iteration order, against a fixed third-party list. */
  function Generate(cfg: Config, thirdParty: seq<string>, ds: Dataset, commitSha: Option<string>, ps: Projects)
    : (r: Result<seq<Manifest>>)
    ensures r.Ok? ==> forall c :: c in Candidates(ps, cfg.ignoreProjects, thirdParty) && c in ds ==> ds[c].Present?
    ensures r.Err? ==> (r.error.MissingDependencies? && r.error.project in ds && ds[r.error.project].Empty?)
                       || r.error.NoBuildCommand?
    ensures r.Ok? ==> Namespaced(r.value)
    decreases |ps|
  {
    if |ps| == 0 then Ok([])
    else
      var first :- Step(cfg, thirdParty, ds, commitSha, ps[0].0, ps[0].1);
      var rest :- Generate(cfg, thirdParty, ds, commitSha, ps[1..]);
      var head := if first.Some? then [first.value] else [];
      NamespacedConcat(head, rest);
      var ms := head + rest;
      Ok(ms)
  }

  /** The manifests come out for the listed candidates, one each, in iteration order. */
  lemma {:induction false} GenerateProjects(cfg: Config, thirdParty: seq<string>, ds: Dataset,
                                            commitSha: Option<string>, ps: Projects)
    ensures var r := Generate(cfg, thirdParty, ds, commitSha, ps);
            r.Ok? ==> ProjectsOf(r.value) == Listed(Candidates(ps, cfg.ignoreProjects, thirdParty), ds)
    decreases |ps|
  {
    var r := Generate(cfg, thirdParty, ds, commitSha, ps);
    if |ps| > 0 && r.Ok? {
      var step := Step(cfg, thirdParty, ds, commitSha, ps[0].0, ps[0].1);
      var later := Generate(cfg, thirdParty, ds, commitSha, ps[1..]);
      assert step.Ok? && later.Ok?;
      var head := if step.value.Some? then [step.value.value] else [];
      assert r.value == head + later.value;
      assert ProjectsOf(head) == if step.value.Some? then [ps[0].0] else [];
      GenerateProjects(cfg, thirdParty, ds, commitSha, ps[1..]);
      ListedCandidatesCons(cfg.ignoreProjects, thirdParty, ds, ps);
      ProjectsOfConcat(head, later.value);
    }
  }

  /** The loop succeeds exactly when every iteration does. */
  lemma {:induction false} GenerateOk(cfg: Config, thirdParty: seq<string>, ds: Dataset,
                                      commitSha: Option<string>, ps: Projects)
    ensures Generate(cfg, thirdParty, ds, commitSha, ps).Ok?
        <==> forall i :: 0 <= i < |ps| ==> Step(cfg, thirdParty, ds, commitSha, ps[i].0, ps[i].1).Ok?
    decreases |ps|
  {
    if |ps| > 0 {
      GenerateOk(cfg, thirdParty, ds, commitSha, ps[1..]);
      assert forall i :: 1 <= i < |ps| ==> ps[1..][i - 1] == ps[i];
    }
  }

  /** A failed loop reports the error of the first project it does not get past. */
  lemma {:induction false} GenerateFirstFailure(cfg: Config, thirdParty: seq<string>, ds: Dataset,
                                                commitSha: Option<string>, ps: Projects)
    ensures Generate(cfg, thirdParty, ds, commitSha, ps).Err? ==>
      exists i :: FirstFailureAt(cfg, thirdParty, ds, commitSha, ps, i, Generate(cfg, thirdParty, ds, commitSha, ps).error)
    decreases |ps|
  {
    var r := Generate(cfg, thirdParty, ds, commitSha, ps);
    if |ps| > 0 && r.Err? {
      var step := Step(cfg, thirdParty, ds, commitSha, ps[0].0, ps[0].1);
      if step.Err? {
        assert r == Err(step.error);
        assert FirstFailureAt(cfg, thirdParty, ds, commitSha, ps, 0, r.error);
      } else {
        var later := Generate(cfg, thirdParty, ds, commitSha, ps[1..]);
        assert later.Err? && r == Err(later.error);
        GenerateFirstFailure(cfg, thirdParty, ds, commitSha, ps[1..]);
        var i :| FirstFailureAt(cfg, thirdParty, ds, commitSha, ps[1..], i, later.error);
        assert ps[1..][i] == ps[i + 1];
        forall j | 0 <= j < i + 1
          ensures Step(cfg, thirdParty, ds, commitSha, ps[j].0, ps[j].1).Ok?
        {
          if j > 0 {
            assert ps[1..][j - 1] == ps[j];
          }
        }
        assert FirstFailureAt(cfg, thirdParty, ds, commitSha, ps, i + 1, r.error);
      }
    }
  }

  /** Every manifest of a successful loop is the one its project's iteration describes. */
  lemma {:induction false} GenerateManifests(cfg: Config, thirdParty: seq<string>, ds: Dataset,
                                             commitSha: Option<string>, ps: Projects)
    ensures Generate(cfg, thirdParty, ds, commitSha, ps).Ok? ==>
      forall k :: 0 <= k < |Generate(cfg, thirdParty, ds, commitSha, ps).value| ==>
        Explained(cfg, thirdParty, ds, commitSha, ps, Generate(cfg, thirdParty, ds, commitSha, ps).value[k])
    decreases |ps|
  {
    var r := Generate(cfg, thirdParty, ds, commitSha, ps);
    if |ps| > 0 && r.Ok? {
      var step := Step(cfg, thirdParty, ds, commitSha, ps[0].0, ps[0].1).value;
      var rest := Generate(cfg, thirdParty, ds, commitSha, ps[1..]).value;
      var head := if step.Some? then [step.value] else [];
      assert r.value == head + rest;
      GenerateManifests(cfg, thirdParty, ds, commitSha, ps[1..]);
      HeadExplained(cfg, thirdParty, ds, commitSha, ps);
      AllExplainedCons(cfg, thirdParty, ds, commitSha, ps, head, rest);
    }
  }

  /**
    The whole run: a manifest for every reported project that is not
    ignored, not third-party and listed by the dataset, in iteration order.
    The run succeeds exactly when every such project has a non-empty entry
    and CMake options, so a project the dataset does not list never decides
    the outcome; otherwise it reports the first failing project's error.
   */
  function Run(cfg: Config, ps: Projects, ds: Dataset, commitSha: Option<string>): (r: Result<seq<Manifest>>)
    ensures r.Ok? <==> forall i :: 0 <= i < |ps| ==>
      Usable(cfg, ThirdPartyProjects(ps, cfg.forceThirdParty), ds, ps[i].0, ps[i].1)
    ensures r.Err? ==> exists i ::
      FirstFailureAt(cfg, ThirdPartyProjects(ps, cfg.forceThirdParty), ds, commitSha, ps, i, r.error)
    ensures r.Ok? ==>
      ProjectsOf(r.value) == Listed(Candidates(ps, cfg.ignoreProjects, ThirdPartyProjects(ps, cfg.forceThirdParty)), ds)
    ensures r.Ok? ==> forall p :: p in ProjectsOf(r.value) <==>
      p in Names(ps) && p !in cfg.ignoreProjects && !HasNonKdeRepository(ps, p) && p !in cfg.forceThirdParty && p in ds
    ensures r.Ok? ==> forall k :: 0 <= k < |r.value| ==>
      Explained(cfg, ThirdPartyProjects(ps, cfg.forceThirdParty), ds, commitSha, ps, r.value[k])
    ensures r.Err? ==> !r.error.MissingArchDependencies?
  {
    var thirdParty := ThirdPartyProjects(ps, cfg.forceThirdParty);
    GenerateProjects(cfg, thirdParty, ds, commitSha, ps);
    GenerateOk(cfg, thirdParty, ds, commitSha, ps);
    AllStepOutcomes(cfg, thirdParty, ds, commitSha, ps);
    GenerateFirstFailure(cfg, thirdParty, ds, commitSha, ps);
    GenerateManifests(cfg, thirdParty, ds, commitSha, ps);
    Generate(cfg, thirdParty, ds, commitSha, ps)
  }

  /**
    With the shipped configuration, an ignored project and a force-listed
    third-party one produce no manifest and cannot fail the run, whatever
    their entries and options are.
   */
  lemma ShippedSkips(ds: Dataset, commitSha: Option<string>, a: ProjectInfo, b: ProjectInfo)
    ensures Run(Settings, [("plasma-nano", a), ("taglib", b)], ds, commitSha) == Ok([])
  {
    var ps := [("plasma-nano", a), ("taglib", b)];
    assert "plasma-nano" in Settings.ignoreProjects;
    assert "taglib" in Settings.forceThirdParty;
    var thirdParty := ThirdPartyProjects(ps, Settings.forceThirdParty);
    assert "taglib" in thirdParty;
    assert Step(Settings, thirdParty, ds, commitSha, "plasma-nano", a) == Ok(None);
    assert Step(Settings, thirdParty, ds, commitSha, "taglib", b) == Ok(None);
    var tail: Projects := [("taglib", b)];
    assert ps[1..] == tail && tail[1..] == [];
    assert Generate(Settings, thirdParty, ds, commitSha, tail[1..]) == Ok([]);
    assert Step(Settings, thirdParty, ds, commitSha, tail[0].0, tail[0].1) == Ok(None);
    assert Generate(Settings, thirdParty, ds, commitSha, tail).Ok?;
    assert Generate(Settings, thirdParty, ds, commitSha, tail).value == [];
  }
}

=== FILE: make_pkgbuilds.dfy ===
/**
  make-pkgbuilds.py, the current manifest generator: for every reported
  project that is neither ignored nor third-party it resolves the
  dependencies, plans the CMake build and yields one PKGBUILD manifest; the
  first error stops the whole run.
 */
module MakePkgbuilds {
  import opened Results
  import opened Text
  import opened Metadata
  import opened Classify
  import opened Cmake
  import opened Manifests

  /** The script's configuration lists. */
  datatype Config = Config(
    ignoreProjects: seq<string>,                    // never packaged; edges to them are dropped
    ignoreArchDeps: set<string>,                    // distro dependencies never declared
    virtualPackages: map<string, seq<string>>,      // extra `provides` per project
    forceThirdParty: seq<string>,                   // third-party whatever their repository
    extraCmakeOptions: seq<string>)                 // flags of every configure step

  /** The values make-pkgbuilds.py ships with. */
  const Settings: Config := Config(
    ["selenium-webdriver-at-spi", "plasma-nano", "packagekit-qt"],
    {"phonon-qt6-backend"},
    map["kwallet" := ["org.freedesktop.secrets"]],
    ["taglib", "zxing-cpp"],
    [ "-G Ninja", "-DCMAKE_INSTALL_PREFIX=/usr", "-DBUILD_TESTING=OFF",
      "-DCMAKE_INSTALL_LIBEXECDIR=lib", "-DWITH_PYTHON_VENDORING=OFF",
      "-DCMAKE_BUILD_TYPE=RelWithDebInfo", "-Wno-dev" ])

  /** Space, backslash-newline and two tabs: one configure flag per manifest line. */
  const LineContinuation: string := " \\\n\t\t"

  const ParallelBuild: string := "cmake --build build --parallel "

  // ---------------------------------------------------------------------------
  // Build plan

  /** The options after `build_command`'s default: an empty mapping reads as an empty CMake plan. */
  function EffectiveOptions(options: map<string, string>): (r: map<string, string>)
    ensures |options| == 0 ==> r == map[CmakeOptionsKey := ""]
    ensures |options| > 0 ==> r == options
  {
    if |options| == 0 then map[CmakeOptionsKey := ""] else options
  }

  /**
    `build_command`: the configure step (head, every extra flag, the
    project's own option string, joined with line continuations) and a build
    step running `cpus + 1` jobs; it fails on options that are not CMake's.
   */
  function BuildCommand(project: string, options: map<string, string>, extra: seq<string>, cpus: nat)
    : (r: Result<seq<string>>)
    ensures r.Ok? <==> |options| == 0 || CmakeOptionsKey in options
    ensures r.Err? ==> r.error == NoBuildCommand(options)
    ensures r.Ok? ==> |r.value| == 2
    ensures r.Ok? ==>
              r.value[0] == Join(LineContinuation, [ConfigureHead(project)] + extra + [EffectiveOptions(options)[CmakeOptionsKey]])
    ensures r.Ok? ==> r.value[1] == ParallelBuild + DecimalString(cpus + 1)
  {
    var opts := EffectiveOptions(options);
    if CmakeOptionsKey in opts then
      Ok([ Join(LineContinuation, [ConfigureHead(project)] + extra + [opts[CmakeOptionsKey]]),
           ParallelBuild + DecimalString(cpus + 1) ])
    else Err(NoBuildCommand(options))
  }

  /** The configure step reads head, separator, the extra flags in order, separator, the project's options. */
  lemma ConfigureCommandLayout(project: string, options: map<string, string>, extra: seq<string>, cpus: nat)
    requires |options| == 0 || CmakeOptionsKey in options
    requires |extra| > 0
    ensures BuildCommand(project, options, extra, cpus).value[0]
      == ConfigureHead(project) + LineContinuation + Join(LineContinuation, extra)
         + LineContinuation + EffectiveOptions(options)[CmakeOptionsKey]
  {
    JoinAround(LineContinuation, ConfigureHead(project), extra, EffectiveOptions(options)[CmakeOptionsKey]);
  }

  /** The job count written after `--parallel` denotes one more than the processor count. */
  lemma ParallelJobs(project: string, options: map<string, string>, extra: seq<string>, cpus: nat)
    requires |options| == 0 || CmakeOptionsKey in options
    ensures var cmd := BuildCommand(project, options, extra, cpus).value[1];
      && StartsWith(cmd, ParallelBuild)
      && var count := cmd[|ParallelBuild|..];
      && (forall i :: 0 <= i < |count| ==> IsDigit(count[i]))
      && DecimalValue(count) == cpus + 1
  {
    var cmd := BuildCommand(project, options, extra, cpus).value[1];
    assert cmd[|ParallelBuild|..] == DecimalString(cpus + 1);
    DecimalRoundTrip(cpus + 1);
  }

  /**
    Empty options get the default plan: an empty CMake option string, and
    because the default is stored back, the package step succeeds too.
   */
  lemma EmptyOptionsDefault(project: string, extra: seq<string>, cpus: nat)
    ensures BuildCommand(project, map[], extra, cpus).Ok?
    ensures BuildCommand(project, map[], extra, cpus).value[0]
      == Join(LineContinuation, [ConfigureHead(project)] + extra + [""])
    ensures PackageCommand(EffectiveOptions(map[])) == Ok("cmake --install build")
  {
  }

  /** Options that name some other build system make both steps fail. */
  lemma ForeignOptionsFail(project: string, options: map<string, string>, extra: seq<string>, cpus: nat)
    requires |options| > 0 && CmakeOptionsKey !in options
    ensures BuildCommand(project, options, extra, cpus) == Err(NoBuildCommand(options))
    ensures PackageCommand(EffectiveOptions(options)) == Err(NoPackageCommand(options))
  {
  }

  // ---------------------------------------------------------------------------
  // Dependency resolution

  /** The extra `provides` of a project: `VIRTUAL_PACKAGES.get(project, [])`. */
  function VirtualFor(cfg: Config, project: string): seq<string> {
    if project in cfg.virtualPackages then cfg.virtualPackages[project] else []
  }

  /**
    What one internal dependency contributes: nothing when ignored; the
    `replaces` of its dataset entry when it is third-party and has an entry
    (an empty entry has none, and the script fails on it); its package name
    otherwise.
   */
  function EdgeTokens(cfg: Config, thirdParty: seq<string>, ds: Dataset, dep: string): (r: Result<seq<string>>)
    ensures r.Err? <==> dep !in cfg.ignoreProjects && dep in thirdParty && dep in ds && ds[dep].Empty?
    ensures r.Err? ==> r.error == DatasetEntryUnusable(dep)
  {
    if dep in cfg.ignoreProjects then Ok([])
    else if dep in thirdParty && dep in ds then
      match ds[dep]
      case Empty => Err(DatasetEntryUnusable(dep))
      case Present(d) => Ok(d.replacing)
    else Ok([PackageName(dep, thirdParty)])
  }

  /** The contributions of the internal dependencies, concatenated in listed order. */
  function InternalEdges(cfg: Config, thirdParty: seq<string>, ds: Dataset, deps: seq<string>)
    : (r: Result<seq<string>>)
    ensures r.Ok? <==> forall i :: 0 <= i < |deps| ==> EdgeTokens(cfg, thirdParty, ds, deps[i]).Ok?
    ensures r.Err? ==> exists i :: 0 <= i < |deps| && EdgeTokens(cfg, thirdParty, ds, deps[i]) == Err(r.error)
  {
    if |deps| == 0 then Ok([])
    else
      var head :- EdgeTokens(cfg, thirdParty, ds, deps[0]);
      var tail :- InternalEdges(cfg, thirdParty, ds, deps[1..]);
      Ok(head + tail)
  }

  /** A dependency list: the filtered distro depends, then the internal edges. */
  function ResolveDepends(cfg: Config, thirdParty: seq<string>, ds: Dataset, d: ArchDeps, deps: seq<string>)
    : (r: Result<seq<string>>)
    ensures r.Ok? <==> forall i :: 0 <= i < |deps| ==> EdgeTokens(cfg, thirdParty, ds, deps[i]).Ok?
    ensures r.Err? ==> exists i :: 0 <= i < |deps| && deps[i] !in cfg.ignoreProjects && deps[i] in thirdParty
                                   && deps[i] in ds && ds[deps[i]].Empty? && r.error == DatasetEntryUnusable(deps[i])
    ensures r.Ok? ==> |Without(d.depends, cfg.ignoreArchDeps)| <= |r.value|
    ensures r.Ok? ==> r.value[..|Without(d.depends, cfg.ignoreArchDeps)|] == Without(d.depends, cfg.ignoreArchDeps)
    ensures r.Ok? ==> r.value[|Without(d.depends, cfg.ignoreArchDeps)|..] == InternalEdges(cfg, thirdParty, ds, deps).value
  {
    var edges :- InternalEdges(cfg, thirdParty, ds, deps);
    var distro := Without(d.depends, cfg.ignoreArchDeps);
    assert (distro + edges)[..|distro|] == distro;
    assert (distro + edges)[|distro|..] == edges;
    Ok(distro + edges)
  }

  /**
    The edges of a split dependency list are the edges of each half,
    concatenated in listed order; the list fails when either half does.
   */
  lemma {:induction false} InternalEdgesAppend(cfg: Config, thirdParty: seq<string>, ds: Dataset,
                                               a: seq<string>, b: seq<string>)
    ensures InternalEdges(cfg, thirdParty, ds, a + b).Ok?
        <==> InternalEdges(cfg, thirdParty, ds, a).Ok? && InternalEdges(cfg, thirdParty, ds, b).Ok?
    ensures InternalEdges(cfg, thirdParty, ds, a + b).Ok? ==>
      InternalEdges(cfg, thirdParty, ds, a + b).value
        == InternalEdges(cfg, thirdParty, ds, a).value + InternalEdges(cfg, thirdParty, ds, b).value
    decreases |a|
  {
    if |a| == 0 {
      assert a + b == b;
    } else {
      assert (a + b)[0] == a[0] && (a + b)[1..] == a[1..] + b;
      InternalEdgesAppend(cfg, thirdParty, ds, a[1..], b);
    }
  }

  /** `deps[i]` is the first internal dependency whose contribution fails, and it fails with `e`. */
  predicate FirstEdgeFailureAt(cfg: Config, thirdParty: seq<string>, ds: Dataset, deps: seq<string>, i: int, e: RunError) {
    && 0 <= i < |deps| && EdgeTokens(cfg, thirdParty, ds, deps[i]) == Err(e)
    && forall j :: 0 <= j < i ==> EdgeTokens(cfg, thirdParty, ds, deps[j]).Ok?
  }

  /**
    The append loop stops at the first failing dependency, and resolution
    reports that dependency's error.
   */
  lemma {:induction false} InternalEdgesFirstFailure(cfg: Config, thirdParty: seq<string>, ds: Dataset, deps: seq<string>)
    ensures InternalEdges(cfg, thirdParty, ds, deps).Err? ==>
      exists i :: FirstEdgeFailureAt(cfg, thirdParty, ds, deps, i, InternalEdges(cfg, thirdParty, ds, deps).error)
    decreases |deps|
  {
    var r := InternalEdges(cfg, thirdParty, ds, deps);
    if |deps| > 0 && r.Err? {
      if EdgeTokens(cfg, thirdParty, ds, deps[0]).Err? {
        assert FirstEdgeFailureAt(cfg, thirdParty, ds, deps, 0, r.error);
      } else {
        InternalEdgesFirstFailure(cfg, thirdParty, ds, deps[1..]);
        var i :| FirstEdgeFailureAt(cfg, thirdParty, ds, deps[1..], i, r.error);
        assert deps[1..][i] == deps[i + 1];
        forall j | 0 <= j < i + 1
          ensures EdgeTokens(cfg, thirdParty, ds, deps[j]).Ok?
        {
          if j > 0 {
            assert deps[1..][j - 1] == deps[j];
          }
        }
        assert FirstEdgeFailureAt(cfg, thirdParty, ds, deps, i + 1, r.error);
      }
    }
  }

  /** Resolution reports the error of the first failing internal dependency. */
  lemma ResolveFirstFailure(cfg: Config, thirdParty: seq<string>, ds: Dataset, d: ArchDeps, deps: seq<string>)
    ensures ResolveDepends(cfg, thirdParty, ds, d, deps).Err? ==>
      exists i :: FirstEdgeFailureAt(cfg, thirdParty, ds, deps, i, ResolveDepends(cfg, thirdParty, ds, d, deps).error)
  {
    InternalEdgesFirstFailure(cfg, thirdParty, ds, deps);
  }

  /** A single dependency contributes exactly its own tokens. */
  lemma InternalEdgesSingle(cfg: Config, thirdParty: seq<string>, ds: Dataset, dep: string)
    ensures InternalEdges(cfg, thirdParty, ds, [dep]) == EdgeTokens(cfg, thirdParty, ds, dep)
  {
    assert [dep][1..] == [];
    var e := EdgeTokens(cfg, thirdParty, ds, dep);
    if e.Ok? {
      assert e.value + [] == e.value;
    }
  }

  lemma {:induction false} InternalEdgesMembership(cfg: Config, thirdParty: seq<string>, ds: Dataset, deps: seq<string>)
    requires InternalEdges(cfg, thirdParty, ds, deps).Ok?
    ensures forall x ::
              x in InternalEdges(cfg, thirdParty, ds, deps).value
              <==> exists i :: 0 <= i < |deps| && EdgeTokens(cfg, thirdParty, ds, deps[i]).Ok?
                               && x in EdgeTokens(cfg, thirdParty, ds, deps[i]).value
    decreases |deps|
  {
    if |deps| > 0 {
      var head := EdgeTokens(cfg, thirdParty, ds, deps[0]).value;
      var tail := InternalEdges(cfg, thirdParty, ds, deps[1..]).value;
      InternalEdgesMembership(cfg, thirdParty, ds, deps[1..]);
      forall x
        ensures x in head + tail <==> exists i :: 0 <= i < |deps| && EdgeTokens(cfg, thirdParty, ds, deps[i]).Ok?
                                                 && x in EdgeTokens(cfg, thirdParty, ds, deps[i]).value
      {
        if x in tail {
          var j :| 0 <= j < |deps[1..]| && EdgeTokens(cfg, thirdParty, ds, deps[1..][j]).Ok?
                   && x in EdgeTokens(cfg, thirdParty, ds, deps[1..][j]).value;
          assert deps[1..][j] == deps[j + 1];
        }
        if exists i :: 0 <= i < |deps| && EdgeTokens(cfg, thirdParty, ds, deps[i]).Ok?
                       && x in EdgeTokens(cfg, thirdParty, ds, deps[i]).value {
          var i :| 0 <= i < |deps| && EdgeTokens(cfg, thirdParty, ds, deps[i]).Ok?
                   && x in EdgeTokens(cfg, thirdParty, ds, deps[i]).value;
          if i > 0 {
            assert deps[1..][i - 1] == deps[i];
          }
        }
      }
    }
  }

  /**
    A resolved dependency is exactly a distro dependency that is not
    ignored, or a token contributed by some internal dependency.
   */
  lemma ResolvedDependsMembership(cfg: Config, thirdParty: seq<string>, ds: Dataset, d: ArchDeps, deps: seq<string>)
    requires ResolveDepends(cfg, thirdParty, ds, d, deps).Ok?
    ensures forall x ::
              x in ResolveDepends(cfg, thirdParty, ds, d, deps).value
              <==> (x in d.depends && x !in cfg.ignoreArchDeps)
                   || exists i :: 0 <= i < |deps| && EdgeTokens(cfg, thirdParty, ds, deps[i]).Ok?
                                  && x in EdgeTokens(cfg, thirdParty, ds, deps[i]).value
  {
    InternalEdgesMembership(cfg, thirdParty, ds, deps);
    WithoutMembership(d.depends, cfg.ignoreArchDeps);
  }

  /**
    Each internal dependency is honoured: a third-party one with a dataset
    entry brings every name of its `replaces`, any other non-ignored one
    brings its package name; the run fails exactly when some third-party
    dependency has an empty entry.
   */
  lemma EdgeContributions(cfg: Config, thirdParty: seq<string>, ds: Dataset, d: ArchDeps, deps: seq<string>)
    ensures ResolveDepends(cfg, thirdParty, ds, d, deps).Err?
      <==> exists i :: 0 <= i < |deps| && deps[i] !in cfg.ignoreProjects && deps[i] in thirdParty
                       && deps[i] in ds && ds[deps[i]].Empty?
    ensures ResolveDepends(cfg, thirdParty, ds, d, deps).Ok? ==>
      forall i :: 0 <= i < |deps| && deps[i] !in cfg.ignoreProjects ==>
        if deps[i] in thirdParty && deps[i] in ds then
          forall x :: x in ds[deps[i]].deps.replacing ==> x in ResolveDepends(cfg, thirdParty, ds, d, deps).value
        else PackageName(deps[i], thirdParty) in ResolveDepends(cfg, thirdParty, ds, d, deps).value
  {
    var r := ResolveDepends(cfg, thirdParty, ds, d, deps);
    if r.Ok? {
      ResolvedDependsMembership(cfg, thirdParty, ds, d, deps);
      forall i | 0 <= i < |deps| && deps[i] !in cfg.ignoreProjects
        ensures if deps[i] in thirdParty && deps[i] in ds then
                  forall x :: x in ds[deps[i]].deps.replacing ==> x in r.value
                else PackageName(deps[i], thirdParty) in r.value
      {
        assert EdgeTokens(cfg, thirdParty, ds, deps[i]).Ok?;
      }
    } else {
      var i :| 0 <= i < |deps| && !EdgeTokens(cfg, thirdParty, ds, deps[i]).Ok?;
      assert deps[i] !in cfg.ignoreProjects && deps[i] in thirdParty && deps[i] in ds && ds[deps[i]].Empty?;
    }
  }

  /** Inserting an ignored dependency anywhere leaves the resolution unchanged: the edge is dropped. */
  lemma {:induction false} IgnoredEdgeDropped(cfg: Config, thirdParty: seq<string>, ds: Dataset,
                                              before: seq<string>, dep: string, after: seq<string>)
    requires dep in cfg.ignoreProjects
    ensures InternalEdges(cfg, thirdParty, ds, before + [dep] + after)
         == InternalEdges(cfg, thirdParty, ds, before + after)
    decreases |before|
  {
    if |before| == 0 {
      var xs := before + [dep] + after;
      assert xs[0] == dep && xs[1..] == after;
      assert EdgeTokens(cfg, thirdParty, ds, dep) == Ok([]);
      assert before + after == after;
      match InternalEdges(cfg, thirdParty, ds, after)
      case Ok(tail) => assert [] + tail == tail;
      case Err(_) =>
    } else {
      assert (before + [dep] + after)[1..] == before[1..] + [dep] + after;
      assert (before + after)[1..] == before[1..] + after;
      IgnoredEdgeDropped(cfg, thirdParty, ds, before[1..], dep, after);
    }
  }

  /**
    The first-party project `foo` needing distro package `libfoo-dev` and the
    third-party project `bar`, whose entry replaces `provides-bar`, depends
    on exactly those two packages.
   */
  lemma ThirdPartyEdgeScenario()
    ensures ResolveDepends(
              Settings, ["bar"],
              map["bar" := Present(ArchDeps([], [], [], ["provides-bar"]))],
              ArchDeps(["libfoo-dev"], [], [], []),
              ["bar"])
         == Ok(["libfoo-dev", "provides-bar"])
  {
    var ds := map["bar" := Present(ArchDeps([], [], [], ["provides-bar"]))];
    assert "bar" !in Settings.ignoreProjects;
    assert EdgeTokens(Settings, ["bar"], ds, "bar") == Ok(["provides-bar"]);
    assert ["bar"][1..] == [];
    assert InternalEdges(Settings, ["bar"], ds, []) == Ok([]);
    var one: seq<string> := ["provides-bar"];
    assert one + [] == one;
    assert InternalEdges(Settings, ["bar"], ds, ["bar"]) == Ok(["provides-bar"]);
    assert "libfoo-dev" !in Settings.ignoreArchDeps;
    WithoutNothingDropped(["libfoo-dev"], Settings.ignoreArchDeps);
    var two: seq<string> := ["libfoo-dev"] + one;
    assert two == ["libfoo-dev", "provides-bar"];
  }

  // ---------------------------------------------------------------------------
  // Manifests

  /**
    The manifest of a project with a dataset entry: named
    `kde-banana-<project>-git` for both pkgbase and pkgname, versioned by the commit
    or `local`, fetched from the expanded locator, depending on the resolved
    list, providing the entry's `replaces` plus its virtual packages,
    conflicting with and replacing exactly the entry's `replaces`, built and
    packaged by the CMake plan.
   */
  predicate Describes(cfg: Config, thirdParty: seq<string>, ds: Dataset, cpus: nat, commitSha: Option<string>,
                      name: string, info: ProjectInfo, m: Manifest)
  {
    && EntryFault(ds, name).None?
    && m.pkgbase == FirstPartyName(name) && m.pkgname == m.pkgbase
    && m.pkgver == commitSha.GetOr("local")
    && m.repo == ExpandLocator(info.repository)
    && ResolveDepends(cfg, thirdParty, ds, ds[name].deps, info.dependencies) == Ok(m.depends)
    && m.makedepends == ds[name].deps.makedepends
    && m.optdepends == ds[name].deps.optdepends
    && m.providing == ds[name].deps.replacing + VirtualFor(cfg, name)
    && m.conflicts == ds[name].deps.replacing
    && m.replacing == ds[name].deps.replacing
    && BuildCommand(name, info.options, cfg.extraCmakeOptions, cpus) == Ok(m.build)
    && m.package == "cmake --install build"
  }

  /**
    The loop gets past the project: it is skipped, or it has a usable
    dataset entry, its dependencies resolve and its options are CMake's.
   */
  predicate Usable(cfg: Config, thirdParty: seq<string>, ds: Dataset, cpus: nat, name: string, info: ProjectInfo) {
    || name in cfg.ignoreProjects || name in thirdParty
    || (&& EntryFault(ds, name).None?
        && ResolveDepends(cfg, thirdParty, ds, ds[name].deps, info.dependencies).Ok?
        && BuildCommand(name, info.options, cfg.extraCmakeOptions, cpus).Ok?)
  }

  /**
    One iteration of the script's loop: skip an ignored or third-party
    project; otherwise demand a non-empty dataset entry and build the
    manifest, stopping on the first error.
   */
  function Step(cfg: Config, thirdParty: seq<string>, ds: Dataset, cpus: nat, commitSha: Option<string>,
                name: string, info: ProjectInfo): (r: Result<Option<Manifest>>)
    ensures name in cfg.ignoreProjects || name in thirdParty <==> r == Ok(None)
    ensures name !in cfg.ignoreProjects && name !in thirdParty && EntryFault(ds, name).Some? ==>
      r == Err(EntryFault(ds, name).value)
    ensures r.Ok? && r.value.Some? ==>
      && r.value.value.project == name
      && r.value.value.pkgbase == FirstPartyName(name) && r.value.value.pkgname == FirstPartyName(name)
      && Describes(cfg, thirdParty, ds, cpus, commitSha, name, info, r.value.value)
  {
    if name in cfg.ignoreProjects || name in thirdParty then Ok(None)
    else
      match EntryFault(ds, name)
      case Some(e) => Err(e)
      case None =>
        var d := ds[name].deps;
        var depends :- ResolveDepends(cfg, thirdParty, ds, d, info.dependencies);
        var build :- BuildCommand(name, info.options, cfg.extraCmakeOptions, cpus);
        // a successful build command means the effective options are CMake's
        var package := PackageCommand(EffectiveOptions(info.options)).value;
        var pkgname := PackageName(name, thirdParty);
        Ok(Some(Manifest(
          name, pkgname, pkgname, commitSha.GetOr("local"), ExpandLocator(info.repository),
          depends, d.makedepends, d.optdepends,
          d.replacing + VirtualFor(cfg, name), d.replacing, d.replacing,
          build, package)))
  }

  /** The loop gets past a project exactly when the project is usable. */
  lemma StepOutcome(cfg: Config, thirdParty: seq<string>, ds: Dataset, cpus: nat, commitSha: Option<string>,
                    name: string, info: ProjectInfo)
    ensures Step(cfg, thirdParty, ds, cpus, commitSha, name, info).Ok? <==> Usable(cfg, thirdParty, ds, cpus, name, info)
  {
  }

  lemma AllStepOutcomes(cfg: Config, thirdParty: seq<string>, ds: Dataset, cpus: nat, commitSha: Option<string>,
                        ps: Projects)
    ensures forall i :: 0 <= i < |ps| ==>
      (Step(cfg, thirdParty, ds, cpus, commitSha, ps[i].0, ps[i].1).Ok? <==> Usable(cfg, thirdParty, ds, cpus, ps[i].0, ps[i].1))
  {
    forall i | 0 <= i < |ps|
      ensures Step(cfg, thirdParty, ds, cpus, commitSha, ps[i].0, ps[i].1).Ok? <==> Usable(cfg, thirdParty, ds, cpus, ps[i].0, ps[i].1)
    {
      StepOutcome(cfg, thirdParty, ds, cpus, commitSha, ps[i].0, ps[i].1);
    }
  }

  /**
    Which error a project the loop does not get past reports: an unusable
    dataset entry, then an empty entry of a third-party dependency, then
    options that are not CMake's, in the order the script meets them.
   */
  lemma StepErrors(cfg: Config, thirdParty: seq<string>, ds: Dataset, cpus: nat, commitSha: Option<string>,
                   name: string, info: ProjectInfo)
    ensures name !in cfg.ignoreProjects && name !in thirdParty && EntryFault(ds, name).None?
            && ResolveDepends(cfg, thirdParty, ds, ds[name].deps, info.dependencies).Err? ==>
      Step(cfg, thirdParty, ds, cpus, commitSha, name, info)
        == Err(ResolveDepends(cfg, thirdParty, ds, ds[name].deps, info.dependencies).error)
    ensures name !in cfg.ignoreProjects && name !in thirdParty && EntryFault(ds, name).None?
            && ResolveDepends(cfg, thirdParty, ds, ds[name].deps, info.dependencies).Ok?
            && BuildCommand(name, info.options, cfg.extraCmakeOptions, cpus).Err? ==>
      Step(cfg, thirdParty, ds, cpus, commitSha, name, info) == Err(NoBuildCommand(info.options))
  {
  }

  /**
    The naming rule that ties manifests together: when a project lists
    another first-party project as a dependency and both get manifests, the
    dependent's depends name the dependency's own pkgbase.
   */
  lemma DependencyUsesPkgbase(cfg: Config, thirdParty: seq<string>, ds: Dataset, cpus: nat, commitSha: Option<string>,
                              name: string, info: ProjectInfo, dep: string, depInfo: ProjectInfo)
    ensures var r := Step(cfg, thirdParty, ds, cpus, commitSha, name, info);
            var q := Step(cfg, thirdParty, ds, cpus, commitSha, dep, depInfo);
            r.Ok? && r.value.Some? && q.Ok? && q.value.Some? && dep in info.dependencies ==>
              q.value.value.pkgbase in r.value.value.depends
  {
    var r := Step(cfg, thirdParty, ds, cpus, commitSha, name, info);
    var q := Step(cfg, thirdParty, ds, cpus, commitSha, dep, depInfo);
    if r.Ok? && r.value.Some? && q.Ok? && q.value.Some? && dep in info.dependencies {
      var i :| 0 <= i < |info.dependencies| && info.dependencies[i] == dep;
      assert EdgeTokens(cfg, thirdParty, ds, dep) == Ok([FirstPartyName(dep)]);
      ResolvedDependsMembership(cfg, thirdParty, ds, ds[name].deps, info.dependencies);
    }
  }

  /** `ps[i]` is the first project the loop does not get past, and it fails with `e`. */
  predicate FirstFailureAt(cfg: Config, thirdParty: seq<string>, ds: Dataset, cpus: nat, commitSha: Option<string>,
                           ps: Projects, i: int, e: RunError) {
    && 0 <= i < |ps| && Step(cfg, thirdParty, ds, cpus, commitSha, ps[i].0, ps[i].1) == Err(e)
    && forall j :: 0 <= j < i ==> Step(cfg, thirdParty, ds, cpus, commitSha, ps[j].0, ps[j].1).Ok?
  }

  /** The loop over every reported project, in iteration order, against a fixed third-party list. */
  function Generate(cfg: Config, thirdParty: seq<string>, ds: Dataset, cpus: nat, commitSha: Option<string>,
                    ps: Projects): (r: Result<seq<Manifest>>)
    ensures r.Ok? ==> ProjectsOf(r.value) == Candidates(ps, cfg.ignoreProjects, thirdParty)
    ensures r.Ok? ==> forall c :: c in Candidates(ps, cfg.ignoreProjects, thirdParty) ==> EntryFault(ds, c).None?
    ensures r.Ok? ==> Namespaced(r.value)
    decreases |ps|
  {
    if |ps| == 0 then Ok([])
    else
      var first :- Step(cfg, thirdParty, ds, cpus, commitSha, ps[0].0, ps[0].1);
      var rest :- Generate(cfg, thirdParty, ds, cpus, commitSha, ps[1..]);
      var head := if first.Some? then [first.value] else [];
      LoopCons(cfg, thirdParty, ds, ps, first, rest);
      Ok(head + rest)
  }

  /**
    One more iteration keeps the loop's promises: the manifests follow the
    candidates, every candidate has a usable entry, every manifest is
    namespaced. Only the facts `Step` promises about the first project are
    assumed, so the proof does not unfold the loop.
   */
  lemma LoopCons(cfg: Config, thirdParty: seq<string>, ds: Dataset, ps: Projects,
                 first: Option<Manifest>, rest: seq<Manifest>)
    requires |ps| > 0
    requires first.None? <==> ps[0].0 in cfg.ignoreProjects || ps[0].0 in thirdParty
    requires first.Some? ==>
      && first.value.project == ps[0].0 && EntryFault(ds, ps[0].0).None?
      && first.value.pkgbase == FirstPartyName(ps[0].0) && first.value.pkgname == first.value.pkgbase
    requires ProjectsOf(rest) == Candidates(ps[1..], cfg.ignoreProjects, thirdParty)
    requires forall c :: c in Candidates(ps[1..], cfg.ignoreProjects, thirdParty) ==> EntryFault(ds, c).None?
    requires Namespaced(rest)
    ensures ProjectsOf((if first.Some? then [first.value] else []) + rest) == Candidates(ps, cfg.ignoreProjects, thirdParty)
    ensures forall c :: c in Candidates(ps, cfg.ignoreProjects, thirdParty) ==> EntryFault(ds, c).None?
    ensures Namespaced((if first.Some? then [first.value] else []) + rest)
  {
    var head := if first.Some? then [first.value] else [];
    ProjectsOfConcat(head, rest);
    assert ProjectsOf(head) == if first.Some? then [ps[0].0] else [];
    assert Candidates(ps, cfg.ignoreProjects, thirdParty)
        == ProjectsOf(head) + Candidates(ps[1..], cfg.ignoreProjects, thirdParty);
    NamespacedConcat(head, rest);
  }

  /** The loop succeeds exactly when every iteration does. */
  lemma {:induction false} GenerateOk(cfg: Config, thirdParty: seq<string>, ds: Dataset, cpus: nat,
                                      commitSha: Option<string>, ps: Projects)
    ensures Generate(cfg, thirdParty, ds, cpus, commitSha, ps).Ok?
        <==> forall i :: 0 <= i < |ps| ==> Step(cfg, thirdParty, ds, cpus, commitSha, ps[i].0, ps[i].1).Ok?
    decreases |ps|
  {
    if |ps| > 0 {
      GenerateOk(cfg, thirdParty, ds, cpus, commitSha, ps[1..]);
      GenerateOkCons(cfg, thirdParty, ds, cpus, commitSha, ps);
      AllStepsOkCons(cfg, thirdParty, ds, cpus, commitSha, ps);
    }
  }

  lemma GenerateOkCons(cfg: Config, thirdParty: seq<string>, ds: Dataset, cpus: nat,
                       commitSha: Option<string>, ps: Projects)
    requires |ps| > 0
    ensures Generate(cfg, thirdParty, ds, cpus, commitSha, ps).Ok?
        <==> Step(cfg, thirdParty, ds, cpus, commitSha, ps[0].0, ps[0].1).Ok?
             && Generate(cfg, thirdParty, ds, cpus, commitSha, ps[1..]).Ok?
  {
  }

  lemma AllStepsOkCons(cfg: Config, thirdParty: seq<string>, ds: Dataset, cpus: nat,
                       commitSha: Option<string>, ps: Projects)
    requires |ps| > 0
    ensures (forall i :: 0 <= i < |ps| ==> Step(cfg, thirdParty, ds, cpus, commitSha, ps[i].0, ps[i].1).Ok?)
        <==> Step(cfg, thirdParty, ds, cpus, commitSha, ps[0].0, ps[0].1).Ok?
             && forall i :: 0 <= i < |ps[1..]| ==> Step(cfg, thirdParty, ds, cpus, commitSha, ps[1..][i].0, ps[1..][i].1).Ok?
  {
    assert forall i :: 1 <= i < |ps| ==> ps[1..][i - 1] == ps[i];
  }

  /** A failed loop reports the error of the first project it does not get past. */
  lemma {:induction false} GenerateFirstFailure(cfg: Config, thirdParty: seq<string>, ds: Dataset, cpus: nat,
                                                commitSha: Option<string>, ps: Projects)
    ensures Generate(cfg, thirdParty, ds, cpus, commitSha, ps).Err? ==>
      exists i :: FirstFailureAt(cfg, thirdParty, ds, cpus, commitSha, ps, i,
                                 Generate(cfg, thirdParty, ds, cpus, commitSha, ps).error)
    decreases |ps|
  {
    var r := Generate(cfg, thirdParty, ds, cpus, commitSha, ps);
    if |ps| > 0 && r.Err? {
      var step := Step(cfg, thirdParty, ds, cpus, commitSha, ps[0].0, ps[0].1);
      if step.Err? {
        assert r == Err(step.error);
        assert FirstFailureAt(cfg, thirdParty, ds, cpus, commitSha, ps, 0, r.error);
      } else {
        var later := Generate(cfg, thirdParty, ds, cpus, commitSha, ps[1..]);
        assert later.Err? && r == Err(later.error);
        GenerateFirstFailure(cfg, thirdParty, ds, cpus, commitSha, ps[1..]);
        var i :| FirstFailureAt(cfg, thirdParty, ds, cpus, commitSha, ps[1..], i, later.error);
        assert ps[1..][i] == ps[i + 1];
        forall j | 0 <= j < i + 1
          ensures Step(cfg, thirdParty, ds, cpus, commitSha, ps[j].0, ps[j].1).Ok?
        {
          if j > 0 {
            assert ps[1..][j - 1] == ps[j];
          }
        }
        assert FirstFailureAt(cfg, thirdParty, ds, cpus, commitSha, ps, i + 1, r.error);
      }
    }
  }

  /** Some reported project's iteration describes `m`. */
  predicate Explained(cfg: Config, thirdParty: seq<string>, ds: Dataset, cpus: nat, commitSha: Option<string>,
                      ps: Projects, m: Manifest) {
    exists i :: 0 <= i < |ps| && ps[i].0 == m.project && Describes(cfg, thirdParty, ds, cpus, commitSha, ps[i].0, ps[i].1, m)
  }

  lemma ExplainedByTail(cfg: Config, thirdParty: seq<string>, ds: Dataset, cpus: nat, commitSha: Option<string>,
                        ps: Projects, m: Manifest)
    requires |ps| > 0 && Explained(cfg, thirdParty, ds, cpus, commitSha, ps[1..], m)
    ensures Explained(cfg, thirdParty, ds, cpus, commitSha, ps, m)
  {
    var i :| 0 <= i < |ps[1..]| && ps[1..][i].0 == m.project
             && Describes(cfg, thirdParty, ds, cpus, commitSha, ps[1..][i].0, ps[1..][i].1, m);
    assert ps[1..][i] == ps[i + 1];
  }

  lemma HeadExplained(cfg: Config, thirdParty: seq<string>, ds: Dataset, cpus: nat, commitSha: Option<string>, ps: Projects)
    requires |ps| > 0
    ensures var step := Step(cfg, thirdParty, ds, cpus, commitSha, ps[0].0, ps[0].1);
            step.Ok? && step.value.Some? ==> Explained(cfg, thirdParty, ds, cpus, commitSha, ps, step.value.value)
  {
    var step := Step(cfg, thirdParty, ds, cpus, commitSha, ps[0].0, ps[0].1);
    if step.Ok? && step.value.Some? {
      assert ps[0].0 == step.value.value.project;
    }
  }

  lemma AllExplainedCons(cfg: Config, thirdParty: seq<string>, ds: Dataset, cpus: nat, commitSha: Option<string>,
                         ps: Projects, head: seq<Manifest>, rest: seq<Manifest>)
    requires |ps| > 0
    requires forall k :: 0 <= k < |head| ==> Explained(cfg, thirdParty, ds, cpus, commitSha, ps, head[k])
    requires forall k :: 0 <= k < |rest| ==> Explained(cfg, thirdParty, ds, cpus, commitSha, ps[1..], rest[k])
    ensures forall k :: 0 <= k < |head + rest| ==> Explained(cfg, thirdParty, ds, cpus, commitSha, ps, (head + rest)[k])
  {
    forall k | 0 <= k < |head + rest|
      ensures Explained(cfg, thirdParty, ds, cpus, commitSha, ps, (head + rest)[k])
    {
      if k >= |head| {
        ExplainedByTail(cfg, thirdParty, ds, cpus, commitSha, ps, rest[k - |head|]);
      }
    }
  }

  /** Every manifest of a successful loop is the one its project's iteration describes. */
  lemma {:induction false} GenerateManifests(cfg: Config, thirdParty: seq<string>, ds: Dataset, cpus: nat,
                                             commitSha: Option<string>, ps: Projects)
    ensures Generate(cfg, thirdParty, ds, cpus, commitSha, ps).Ok? ==>
      forall k :: 0 <= k < |Generate(cfg, thirdParty, ds, cpus, commitSha, ps).value| ==>
        Explained(cfg, thirdParty, ds, cpus, commitSha, ps, Generate(cfg, thirdParty, ds, cpus, commitSha, ps).value[k])
    decreases |ps|
  {
    var r := Generate(cfg, thirdParty, ds, cpus, commitSha, ps);
    if |ps| > 0 && r.Ok? {
      var step := Step(cfg, thirdParty, ds, cpus, commitSha, ps[0].0, ps[0].1).value;
      var rest := Generate(cfg, thirdParty, ds, cpus, commitSha, ps[1..]).value;
      var head := if step.Some? then [step.value] else [];
      assert r.value == head + rest;
      GenerateManifests(cfg, thirdParty, ds, cpus, commitSha, ps[1..]);
      HeadExplained(cfg, thirdParty, ds, cpus, commitSha, ps);
      AllExplainedCons(cfg, thirdParty, ds, cpus, commitSha, ps, head, rest);
    }
  }

  /**
    The whole run. A manifest is made for every reported project that is not
    ignored, has its repository under `kde:` and is not forced third-party,
    in iteration order, and for no other; each such project needs a
    non-empty dataset entry, or the run fails.
   */
  function Run(cfg: Config, ps: Projects, ds: Dataset, cpus: nat, commitSha: Option<string>)
    : (r: Result<seq<Manifest>>)
    ensures r.Ok? <==> forall i :: 0 <= i < |ps| ==>
      Usable(cfg, ThirdPartyProjects(ps, cfg.forceThirdParty), ds, cpus, ps[i].0, ps[i].1)
    ensures r.Err? ==> exists i ::
      FirstFailureAt(cfg, ThirdPartyProjects(ps, cfg.forceThirdParty), ds, cpus, commitSha, ps, i, r.error)
    ensures r.Ok? ==> ProjectsOf(r.value) == Candidates(ps, cfg.ignoreProjects, ThirdPartyProjects(ps, cfg.forceThirdParty))
    ensures r.Ok? ==> forall p :: p in ProjectsOf(r.value) <==>
      p in Names(ps) && p !in cfg.ignoreProjects && !HasNonKdeRepository(ps, p) && p !in cfg.forceThirdParty
    ensures (exists p :: p in Names(ps) && p !in cfg.ignoreProjects && !HasNonKdeRepository(ps, p)
                         && p !in cfg.forceThirdParty && EntryFault(ds, p).Some?) ==> r.Err?
    ensures r.Ok? ==> forall k :: 0 <= k < |r.value| ==>
      Explained(cfg, ThirdPartyProjects(ps, cfg.forceThirdParty), ds, cpus, commitSha, ps, r.value[k])
  {
    var thirdParty := ThirdPartyProjects(ps, cfg.forceThirdParty);
    GenerateOk(cfg, thirdParty, ds, cpus, commitSha, ps);
    AllStepOutcomes(cfg, thirdParty, ds, cpus, commitSha, ps);
    GenerateFirstFailure(cfg, thirdParty, ds, cpus, commitSha, ps);
    GenerateManifests(cfg, thirdParty, ds, cpus, commitSha, ps);
    Generate(cfg, thirdParty, ds, cpus, commitSha, ps)
  }
}

=== FILE: make_spaghetti.dfy ===
/**
  make-spaghetti.py, the aggregator. Instead of one manifest per project it
  builds everything from the projects' checkouts in one go: it collects one
  deduplicated set of distro packages to install, the subset of them needed
  only at build time, and the ordered list of projects to build. Unlike the
  two generators it treats the force list as *not* third-party: those
  projects are built here.
 */
module MakeSpaghetti {
  import opened Results
  import opened Text
  import opened Metadata
  import opened Classify

  /** The script's configuration lists. */
  datatype Config = Config(
    ignoreProjects: seq<string>,
    ignoreArchDeps: set<string>,
    forceThirdParty: seq<string>)

  /** The values make-spaghetti.py ships with. */
  const Settings: Config := Config(
    [ "kgamma", "kwin-x11", "packagekit-qt", "oxygen", "oxygen-icons", "oxygen-sounds",
      "plasma-nano", "selenium-webdriver-at-spi", "plymouth-kcm", "qqc2-breeze-style",
      "wacomtablet", "kde-dev-scripts" ],
    {"phonon-qt6-backend"},
    ["taglib", "zxing-cpp", "wayland-protocols"])

  /** Distro packages every build needs for the tooling itself. */
  const BaseTools: seq<string> := ["gdb", "elfutils", "meson", "cpio", "ccache"]

  /**
    The third-party list of this script: the reported projects outside
    `kde:` that the force list does not name, in iteration order.
   */
  function ThirdPartyProjects(ps: Projects, force: seq<string>): (r: seq<string>)
    ensures |r| <= |ps|
    ensures forall p :: p in r ==> p !in force
    decreases |ps|
  {
    if |ps| == 0 then []
    else
      var name := ps[0].0;
      (if name !in force && !StartsWith(ps[0].1.repository, KdeScheme) then [name] else [])
      + ThirdPartyProjects(ps[1..], force)
  }

  lemma {:induction false} ThirdPartyMembership(ps: Projects, force: seq<string>)
    ensures forall p :: p in ThirdPartyProjects(ps, force) <==> HasNonKdeRepository(ps, p) && p !in force
    decreases |ps|
  {
    if |ps| > 0 {
      ThirdPartyMembership(ps[1..], force);
      NonKdeNamesMembership(ps);
      NonKdeNamesMembership(ps[1..]);
      assert NonKdeNames(ps)
          == (if !StartsWith(ps[0].1.repository, KdeScheme) then [ps[0].0] else []) + NonKdeNames(ps[1..]);
    }
  }

  /** The projects the script builds: reported, not ignored, not third-party, in iteration order. */
  function BuildList(cfg: Config, ps: Projects): seq<string> {
    Candidates(ps, cfg.ignoreProjects, ThirdPartyProjects(ps, cfg.forceThirdParty))
  }

  /**
    With the shipped configuration an ignored project is never built and a
    force-listed one always is, whatever its repository.
   */
  lemma ShippedBuildList(a: ProjectInfo, b: ProjectInfo)
    ensures BuildList(Settings, [("kgamma", a), ("taglib", b)]) == ["taglib"]
  {
    var ps: Projects := [("kgamma", a), ("taglib", b)];
    assert "kgamma" in Settings.ignoreProjects && "taglib" in Settings.forceThirdParty;
    var thirdParty := ThirdPartyProjects(ps, Settings.forceThirdParty);
    assert "taglib" !in thirdParty;
    var tail: Projects := [("taglib", b)];
    assert ps[1..] == tail && tail[1..] == [];
    assert Candidates(tail[1..], Settings.ignoreProjects, thirdParty) == [];
    assert Candidates(tail, Settings.ignoreProjects, thirdParty) == ["taglib"];
  }

  /**
    Who gets built: a reported project that is not ignored and either lives
    under `kde:` or is force-listed. A force-listed project is never skipped
    as third-party, the opposite of what the generators do with it.
   */
  lemma BuildListMembership(cfg: Config, ps: Projects)
    ensures forall p :: p in BuildList(cfg, ps) <==>
      p in Names(ps) && p !in cfg.ignoreProjects && (!HasNonKdeRepository(ps, p) || p in cfg.forceThirdParty)
  {
    ThirdPartyMembership(ps, cfg.forceThirdParty);
  }

  /** The filtered distro depends of every project in `names`, as one set. */
  function DistroUnion(cfg: Config, ds: Dataset, names: seq<string>): set<string> {
    set c, x | c in names && c in ds && ds[c].Present? && x in ds[c].deps.depends && x !in cfg.ignoreArchDeps :: x
  }

  /** The build-time depends of every project in `names`, as one set. */
  function MakeUnion(ds: Dataset, names: seq<string>): set<string> {
    set c, x | c in names && c in ds && ds[c].Present? && x in ds[c].deps.makedepends :: x
  }

  /** What the loop collects, before deduplication: the lists grow in iteration order. */
  datatype Collected = Collected(depends: seq<string>, makedepends: seq<string>, toBuild: seq<string>)

  /**
    The accumulation loop over the reported projects: skip an ignored or
    third-party project, stop at the first project to build whose dataset
    entry is absent or empty, otherwise add its filtered depends, its
    makedepends and its name.
   */
  function Collect(cfg: Config, thirdParty: seq<string>, ds: Dataset, ps: Projects): (r: Result<Collected>)
    ensures r.Ok? <==>
      forall c :: c in Candidates(ps, cfg.ignoreProjects, thirdParty) ==> EntryFault(ds, c).None?
    ensures r.Ok? ==> r.value.toBuild == Candidates(ps, cfg.ignoreProjects, thirdParty)
    ensures r.Err? ==>
      exists c :: c in Candidates(ps, cfg.ignoreProjects, thirdParty) && EntryFault(ds, c) == Some(r.error)
    decreases |ps|
  {
    if |ps| == 0 then Ok(Collected([], [], []))
    else
      var name := ps[0].0;
      var later := Candidates(ps[1..], cfg.ignoreProjects, thirdParty);
      if name in cfg.ignoreProjects || name in thirdParty then
        assert Candidates(ps, cfg.ignoreProjects, thirdParty) == later;
        Collect(cfg, thirdParty, ds, ps[1..])
      else
        assert Candidates(ps, cfg.ignoreProjects, thirdParty) == [name] + later;
        match EntryFault(ds, name)
        case Some(fault) => Err(fault)
        case None =>
          var d := ds[name].deps;
          var rest :- Collect(cfg, thirdParty, ds, ps[1..]);
          Ok(Collected(Without(d.depends, cfg.ignoreArchDeps) + rest.depends,
                       d.makedepends + rest.makedepends,
                       [name] + rest.toBuild))
  }

  /** `names[i]` has the fault `e` and every name before it has a usable entry. */
  predicate FirstFaultAt(ds: Dataset, names: seq<string>, e: RunError, i: int) {
    && 0 <= i < |names| && EntryFault(ds, names[i]) == Some(e)
    && forall j :: 0 <= j < i ==> EntryFault(ds, names[j]).None?
  }

  /**
    The first project to build with a faulty entry is the one the run
    reports: every project to build before it has a usable entry.
   */
  lemma {:induction false} CollectFirstFault(cfg: Config, thirdParty: seq<string>, ds: Dataset, ps: Projects)
    ensures Collect(cfg, thirdParty, ds, ps).Err? ==>
      exists i :: FirstFaultAt(ds, Candidates(ps, cfg.ignoreProjects, thirdParty), Collect(cfg, thirdParty, ds, ps).error, i)
    decreases |ps|
  {
    var r := Collect(cfg, thirdParty, ds, ps);
    if |ps| > 0 && r.Err? {
      var name := ps[0].0;
      var later := Candidates(ps[1..], cfg.ignoreProjects, thirdParty);
      var cands := Candidates(ps, cfg.ignoreProjects, thirdParty);
      CollectFirstFault(cfg, thirdParty, ds, ps[1..]);
      if name in cfg.ignoreProjects || name in thirdParty {
        assert cands == later && r == Collect(cfg, thirdParty, ds, ps[1..]);
      } else {
        assert cands == [name] + later;
        if EntryFault(ds, name).Some? {
          assert r == Err(EntryFault(ds, name).value);
          assert cands[0] == name && EntryFault(ds, cands[0]) == Some(r.error);
          assert FirstFaultAt(ds, cands, r.error, 0);
        } else {
          assert r == Collect(cfg, thirdParty, ds, ps[1..]);
          var i :| FirstFaultAt(ds, later, r.error, i);
          assert cands[i + 1] == later[i];
          forall j | 0 <= j < i + 1
            ensures EntryFault(ds, cands[j]).None?
          {
            if j > 0 {
              assert cands[j] == later[j - 1];
            }
          }
          assert FirstFaultAt(ds, cands, r.error, i + 1);
        }
      }
    }
  }

  /** The collected lists hold exactly the union of the projects' filtered depends and makedepends. */
  lemma {:induction false} CollectContents(cfg: Config, thirdParty: seq<string>, ds: Dataset, ps: Projects)
    ensures var r := Collect(cfg, thirdParty, ds, ps);
            var cands := Candidates(ps, cfg.ignoreProjects, thirdParty);
            r.Ok? ==> ToSet(r.value.depends) == DistroUnion(cfg, ds, cands)
                      && ToSet(r.value.makedepends) == MakeUnion(ds, cands)
    decreases |ps|
  {
    var r := Collect(cfg, thirdParty, ds, ps);
    if |ps| > 0 && r.Ok? {
      var name := ps[0].0;
      var later := Candidates(ps[1..], cfg.ignoreProjects, thirdParty);
      var cands := Candidates(ps, cfg.ignoreProjects, thirdParty);
      CollectContents(cfg, thirdParty, ds, ps[1..]);
      if name in cfg.ignoreProjects || name in thirdParty {
        assert cands == later;
      } else {
        assert cands == [name] + later;
        var rest := Collect(cfg, thirdParty, ds, ps[1..]).value;
        var d := ds[name].deps;
        assert r.value.depends == Without(d.depends, cfg.ignoreArchDeps) + rest.depends;
        assert r.value.makedepends == d.makedepends + rest.makedepends;
        UnionCons(cfg, ds, name, later);
      }
    }
  }

  /** Peeling one project off the unions. */
  lemma UnionCons(cfg: Config, ds: Dataset, name: string, later: seq<string>)
    requires name in ds && ds[name].Present?
    ensures DistroUnion(cfg, ds, [name] + later)
         == ToSet(Without(ds[name].deps.depends, cfg.ignoreArchDeps)) + DistroUnion(cfg, ds, later)
    ensures MakeUnion(ds, [name] + later) == ToSet(ds[name].deps.makedepends) + MakeUnion(ds, later)
  {
    WithoutMembership(ds[name].deps.depends, cfg.ignoreArchDeps);
  }

  /** The script's result: the deduplicated sets and the build order. */
  datatype Spaghetti = Spaghetti(depends: set<string>, makedepends: set<string>, projectsToBuild: seq<string>)

  /**
    The whole aggregation. `dataset` is the distro-dependency document's
    project table, `None` when the document is empty.
   */
  function Aggregate(cfg: Config, ps: Projects, dataset: Option<Dataset>): (r: Result<Spaghetti>)
    ensures |ps| == 0 ==> r == Err(ProjectInfoEmpty)
    ensures |ps| > 0 && dataset.None? ==> r == Err(DatasetEmpty)
    ensures r.Ok? <==> |ps| > 0 && dataset.Some?
                       && forall c :: c in BuildList(cfg, ps) ==> EntryFault(dataset.value, c).None?
    ensures |ps| > 0 && dataset.Some? && r.Err? ==>
      exists i :: FirstFaultAt(dataset.value, BuildList(cfg, ps), r.error, i)
    ensures r.Ok? ==> r.value.projectsToBuild == BuildList(cfg, ps)
    ensures r.Ok? ==> r.value.makedepends == MakeUnion(dataset.value, BuildList(cfg, ps))
    ensures r.Ok? ==> r.value.depends == ToSet(BaseTools) + DistroUnion(cfg, dataset.value, BuildList(cfg, ps))
                                         + MakeUnion(dataset.value, BuildList(cfg, ps))
    ensures r.Ok? ==> r.value.makedepends <= r.value.depends
  {
    if |ps| == 0 then Err(ProjectInfoEmpty)
    else if dataset.None? then Err(DatasetEmpty)
    else
      var thirdParty := ThirdPartyProjects(ps, cfg.forceThirdParty);
      CollectFirstFault(cfg, thirdParty, dataset.value, ps);
      var c :- Collect(cfg, thirdParty, dataset.value, ps);
      CollectContents(cfg, thirdParty, dataset.value, ps);
      Ok(Spaghetti(ToSet(c.makedepends + BaseTools + c.depends), ToSet(c.makedepends), c.toBuild))
  }

  /** `xs` lists every member of `s` exactly once, in some order. */
  predicate Enumerates(xs: seq<string>, s: set<string>) {
    (forall i, j :: 0 <= i < j < |xs| ==> xs[i] != xs[j]) && ToSet(xs) == s
  }

  lemma {:induction false} EnumerationSize(xs: seq<string>, s: set<string>)
    requires Enumerates(xs, s)
    ensures |xs| == |s|
    decreases |xs|
  {
    if |xs| > 0 {
      var rest := s - {xs[0]};
      forall x
        ensures x in xs[1..] <==> x in rest
      {
        if x in xs[1..] {
          var k :| 0 <= k < |xs[1..]| && xs[1..][k] == x;
          assert xs[k + 1] == x;
        }
        if x in rest {
          var k :| 0 <= k < |xs| && xs[k] == x;
          assert k != 0;
          assert xs[1..][k - 1] == x;
        }
      }
      assert Enumerates(xs[1..], rest) by {
        forall i, j | 0 <= i < j < |xs[1..]|
          ensures xs[1..][i] != xs[1..][j]
        {
          assert xs[1..][i] == xs[i + 1] && xs[1..][j] == xs[j + 1];
        }
      }
      EnumerationSize(xs[1..], rest);
    }
  }

  /**
    The pacman invocation: sync without confirmation, then every package of
    the depends set. `listing` is the order Python's set iteration happens to
    produce, which the script does not fix.
   */
  function InstallArgs(listing: seq<string>): (r: seq<string>)
    ensures |r| == 3 + |listing| && r[..3] == ["pacman", "--sync", "--noconfirm"]
    ensures forall i :: 0 <= i < |listing| ==> r[3 + i] == listing[i]
  {
    ["pacman", "--sync", "--noconfirm"] + listing
  }

  /** Whatever the set's order, the installer is asked for each package once and for nothing else. */
  lemma InstallArgsCover(s: Spaghetti, listing: seq<string>)
    requires Enumerates(listing, s.depends)
    ensures |InstallArgs(listing)| == 3 + |s.depends|
    ensures forall x :: x in InstallArgs(listing)[3..] <==> x in s.depends
  {
    EnumerationSize(listing, s.depends);
    assert InstallArgs(listing)[3..] == listing;
  }

  /** The kde-builder invocation: a fresh build of every project to build, in order. */
  function BuildArgs(toBuild: seq<string>): (r: seq<string>)
    ensures |r| == 2 + |toBuild| && r[..2] == ["kde-builder", "--refresh-build"]
    ensures forall i :: 0 <= i < |toBuild| ==> r[2 + i] == toBuild[i]
  {
    ["kde-builder", "--refresh-build"] + toBuild
  }

  /**
    After a successful aggregation, kde-builder is asked for exactly the
    projects that are reported, not ignored and not third-party, each with a
    usable dataset entry.
   */
  lemma BuildArgsTargets(cfg: Config, ps: Projects, dataset: Option<Dataset>)
    ensures var r := Aggregate(cfg, ps, dataset);
            r.Ok? ==> forall p :: p in BuildArgs(r.value.projectsToBuild)[2..] <==> p in BuildList(cfg, ps)
    ensures Aggregate(cfg, ps, dataset).Ok? ==>
              forall p :: p in BuildList(cfg, ps) ==> p in dataset.value && dataset.value[p].Present?
  {
  }
}

=== FILE: manifests.dfy ===
/**
  The package manifest (PKGBUILD) both generators write for a project, and
  its text. The two scripts share the template; they differ only in how the
  field values are computed.
 */
module Manifests {
  import opened Results
  import opened Text
  import opened Metadata
  import opened Classify

  /** One manifest, with every value the template substitutes. */
  datatype Manifest = Manifest(
    project: string,              // the source directory and the description
    pkgbase: string,
    pkgname: string,
    pkgver: string,
    repo: string,                 // the fetch locator, already expanded
    depends: seq<string>,
    makedepends: seq<string>,
    optdepends: seq<OptDep>,
    providing: seq<string>,       // the `provides` field
    conflicts: seq<string>,
    replacing: seq<string>,       // the `replaces` field
    build: seq<string>,           // commands of the build() function
    package: string)              // command of the package() function, run under DESTDIR

  /** The optdepends body: one `"dep: reason"` element per line. */
  function OptDependsText(ods: seq<OptDep>): string {
    Join("\n", seq(|ods|, i requires 0 <= i < |ods| => Quote(ods[i].dep + ": " + ods[i].reason)))
  }

  /** `key=(…)` holding a bash array. */
  function ArrayLine(key: string, xs: seq<string>): string {
    key + "=(" + ToBashArray(xs) + ")"
  }

  /** The project of each manifest, in order. */
  function ProjectsOf(ms: seq<Manifest>): (r: seq<string>)
    ensures |r| == |ms|
    ensures forall i :: 0 <= i < |ms| ==> r[i] == ms[i].project
  {
    seq(|ms|, i requires 0 <= i < |ms| => ms[i].project)
  }

  lemma ProjectsOfConcat(a: seq<Manifest>, b: seq<Manifest>)
    ensures ProjectsOf(a + b) == ProjectsOf(a) + ProjectsOf(b)
  {
  }

  /** Every manifest is named `kde-banana-<project>-git`, pkgbase and pkgname alike. */
  predicate Namespaced(ms: seq<Manifest>) {
    forall i :: 0 <= i < |ms| ==> ms[i].pkgbase == FirstPartyName(ms[i].project) && ms[i].pkgname == ms[i].pkgbase
  }

  lemma NamespacedConcat(a: seq<Manifest>, b: seq<Manifest>)
    requires Namespaced(a) && Namespaced(b)
    ensures Namespaced(a + b)
  {
    forall i | |a| <= i < |a + b|
      ensures (a + b)[i] == b[i - |a|]
    {
    }
  }

  /** The fixed preamble and the scalar fields. */
  function Header(m: Manifest): (r: seq<string>)
    ensures |r| == 14
  {
    [ "",
      "# Maintainer: KDE Community <http://www.kde.org>",
      "",
      "pkgbase=" + m.pkgbase,
      "pkgname=(" + m.pkgname + ")",
      "pkgver=" + m.pkgver,
      "pkgrel=1",
      "url=\"https://community.kde.org/KDE_Linux\"",
      "pkgdesc=\"Build of " + m.project + " for KDE Linux\"",
      "arch=('x86_64')",
      "license=('GPL-2.0-only')",
      "groups=(kde-linux banana)",
      "source=(\"" + m.project + "::git+" + m.repo + "\")",
      "sha256sums=('SKIP')" ]
  }

  /** The dependency declarations. */
  function Declarations(m: Manifest): (r: seq<string>)
    ensures |r| == 6
  {
    [ ArrayLine("depends", m.depends),
      ArrayLine("makedepends", m.makedepends),
      "optdepends=(" + OptDependsText(m.optdepends) + ")",
      ArrayLine("provides", m.providing),
      ArrayLine("conflicts", m.conflicts),
      ArrayLine("replaces", m.replacing) ]
  }

  /** The build() and package() functions. */
  function Steps(m: Manifest): (r: seq<string>)
    ensures |r| == 9
  {
    [ "",
      "build() {",
      "    " + Join(";\n    ", m.build) + ";",
      "}",
      "",
      "package() {",
      "    DESTDIR=\"$pkgdir\" " + m.package + ";",
      "}",
      "" ]
  }

  /**
    The manifest text cut at the newlines the template itself writes; the
    optdepends body and the build commands may hold further newlines.
   */
  function Lines(m: Manifest): (r: seq<string>)
    ensures |r| == 29
  {
    Header(m) + Declarations(m) + Steps(m)
  }

  /** The PKGBUILD text: it opens and closes with a newline. */
  function Render(m: Manifest): (r: string)
    ensures |r| >= 2 && r[0] == '\n' && r[|r| - 1] == '\n'
  {
    var lines := Lines(m);
    assert lines[0] == Header(m)[0] == "";
    assert lines[28] == Steps(m)[8] == "";
    JoinFramed('\n', lines);
    assert "\n" == ['\n'];
    Join("\n", lines)
  }

  /**
    Every line of the manifest apart from the blank first and last stands
    on its own in the text, between two newlines.
   */
  lemma RenderLine(m: Manifest, k: nat)
    requires 0 < k < 28
    ensures Render(m) == Join("\n", Lines(m)[..k]) + "\n" + Lines(m)[k] + "\n" + Join("\n", Lines(m)[k + 1..])
  {
    JoinAt("\n", Lines(m), k);
  }

  /** Reads the array of a `key=(…)` line; `None` when the line is not one. */
  function ArrayField(line: string, key: string): Option<seq<string>> {
    var open := key + "=(";
    if |line| > |open| && StartsWith(line, open) && line[|line| - 1] == ')' then
      ParseBashArray(line[|open|..|line| - 1])
    else None
  }

  lemma ArrayLineRoundTrip(key: string, xs: seq<string>)
    requires QuoteFree(xs)
    ensures ArrayField(ArrayLine(key, xs), key) == Some(xs)
  {
    var line := ArrayLine(key, xs);
    var open := key + "=(";
    assert line == open + ToBashArray(xs) + ")";
    assert line[|open|..|line| - 1] == ToBashArray(xs);
    assert StartsWith(line, open);
    BashArrayRoundTrip(xs);
  }

  /** Every dependency-like array is spelled without double quotes inside an element. */
  predicate PlainArrays(m: Manifest) {
    QuoteFree(m.depends) && QuoteFree(m.makedepends) && QuoteFree(m.providing)
    && QuoteFree(m.conflicts) && QuoteFree(m.replacing)
  }

  /**
    Reading the declared arrays back from the manifest lines gives the
    manifest's own depends, makedepends, provides, conflicts and replaces,
    elements and order alike.
   */
  lemma ArrayFieldsRoundTrip(m: Manifest)
    requires PlainArrays(m)
    ensures ArrayField(Lines(m)[14], "depends") == Some(m.depends)
    ensures ArrayField(Lines(m)[15], "makedepends") == Some(m.makedepends)
    ensures ArrayField(Lines(m)[17], "provides") == Some(m.providing)
    ensures ArrayField(Lines(m)[18], "conflicts") == Some(m.conflicts)
    ensures ArrayField(Lines(m)[19], "replaces") == Some(m.replacing)
  {
    var ds := Declarations(m);
    assert Lines(m)[14..20] == ds;
    ArrayLineRoundTrip("depends", m.depends);
    ArrayLineRoundTrip("makedepends", m.makedepends);
    ArrayLineRoundTrip("provides", m.providing);
    ArrayLineRoundTrip("conflicts", m.conflicts);
    ArrayLineRoundTrip("replaces", m.replacing);
  }
}

=== FILE: metadata.dfy ===
/**
  The records the scripts read: what the build orchestrator reports about
  each project, and what the distro-dependency dataset declares for it.
 */
module Metadata {
  import opened Results

  /** One project as the orchestrator's `project-info` query reports it. */
  datatype ProjectInfo = ProjectInfo(
    repository: string,                 // `kde:<path>` for the project's own forge, a URL otherwise
    dependencies: seq<string>,          // internal project-to-project edges, in listed order
    options: map<string, string>)       // build-system kind to option string; may be empty

  /** An optional dependency and the reason for it. */
  datatype OptDep = OptDep(dep: string, reason: string)

  /** The distro-level declarations of one project. */
  datatype ArchDeps = ArchDeps(
    depends: seq<string>,
    makedepends: seq<string>,
    optdepends: seq<OptDep>,
    replacing: seq<string>)           // the `replaces` key (`replaces` is a Dafny keyword)

  /**
    A dataset entry. `Empty` is an entry whose value is falsy in the scripts
    (a null or an empty mapping); `Present` carries the declarations.
   */
  datatype Entry = Empty | Present(deps: ArchDeps)

  /** The orchestrator's answer, in the order its mapping iterates. */
  type Projects = seq<(string, ProjectInfo)>

  /** The `projects` mapping of the distro-dependency dataset. */
  type Dataset = map<string, Entry>

  function Names(ps: Projects): (r: seq<string>)
    ensures |r| == |ps|
    ensures forall i :: 0 <= i < |ps| ==> r[i] == ps[i].0
  {
    seq(|ps|, i requires 0 <= i < |ps| => ps[i].0)
  }

  /**
    The projects a script turns into packages, in iteration order: every
    project that is neither ignored nor third-party.
   */
  function Candidates(ps: Projects, ignore: seq<string>, thirdParty: seq<string>): (r: seq<string>)
    ensures |r| <= |ps|
    ensures forall c :: c in r <==> c in Names(ps) && c !in ignore && c !in thirdParty
  {
    if |ps| == 0 then []
    else
      assert Names(ps) == [ps[0].0] + Names(ps[1..]);
      var name := ps[0].0;
      (if name !in ignore && name !in thirdParty then [name] else []) + Candidates(ps[1..], ignore, thirdParty)
  }

  /** The candidates of two report halves are the candidates of each, in order. */
  lemma {:induction false} CandidatesAppend(a: Projects, b: Projects, ignore: seq<string>, thirdParty: seq<string>)
    ensures Candidates(a + b, ignore, thirdParty) == Candidates(a, ignore, thirdParty) + Candidates(b, ignore, thirdParty)
    decreases |a|
  {
    if |a| > 0 {
      assert (a + b)[0] == a[0] && (a + b)[1..] == a[1..] + b;
      CandidatesAppend(a[1..], b, ignore, thirdParty);
    } else {
      assert a + b == b;
    }
  }

  /**
    The check both the generator and the aggregator make before using a
    project's dataset entry: an absent entry and an empty entry are both
    errors naming the project.
   */
  function EntryFault(ds: Dataset, name: string): (r: Option<RunError>)
    ensures r.None? <==> name in ds && ds[name].Present?
    ensures name !in ds ==> r == Some(MissingArchDependencies(name))
    ensures name in ds && ds[name].Empty? ==> r == Some(MissingDependencies(name))
  {
    if name !in ds then Some(MissingArchDependencies(name))
    else if ds[name].Empty? then Some(MissingDependencies(name))
    else None
  }

  /** `xs` without the members of `drop`, order kept: how the scripts filter a list against an ignore set. */
  function Without(xs: seq<string>, drop: set<string>): (r: seq<string>)
    ensures |r| <= |xs|
  {
    if |xs| == 0 then []
    else (if xs[0] in drop then [] else [xs[0]]) + Without(xs[1..], drop)
  }

  /** With nothing to drop the filter returns its input. */
  lemma {:induction false} WithoutNothingDropped(xs: seq<string>, drop: set<string>)
    requires forall i :: 0 <= i < |xs| ==> xs[i] !in drop
    ensures Without(xs, drop) == xs
    decreases |xs|
  {
    if |xs| > 0 {
      assert forall i :: 0 <= i < |xs[1..]| ==> xs[1..][i] == xs[i + 1];
      WithoutNothingDropped(xs[1..], drop);
      assert [xs[0]] + xs[1..] == xs;
    }
  }

  /** Filtering distributes over concatenation and keeps the order of both halves. */
  lemma {:induction false} WithoutAppend(a: seq<string>, b: seq<string>, drop: set<string>)
    ensures Without(a + b, drop) == Without(a, drop) + Without(b, drop)
    decreases |a|
  {
    if |a| > 0 {
      assert (a + b)[0] == a[0] && (a + b)[1..] == a[1..] + b;
      WithoutAppend(a[1..], b, drop);
      var first := if a[0] in drop then [] else [a[0]];
      assert Without(a + b, drop) == first + Without(a[1..] + b, drop);
      assert Without(a, drop) == first + Without(a[1..], drop);
      assert first + (Without(a[1..], drop) + Without(b, drop)) == (first + Without(a[1..], drop)) + Without(b, drop);
    } else {
      assert a + b == b;
    }
  }

  /** The filter keeps exactly the elements outside `drop`. */
  lemma {:induction false} WithoutMembership(xs: seq<string>, drop: set<string>)
    ensures forall x :: x in Without(xs, drop) <==> x in xs && x !in drop
    decreases |xs|
  {
    if |xs| > 0 {
      WithoutMembership(xs[1..], drop);
      assert xs == [xs[0]] + xs[1..];
    }
  }

  function ToSet(xs: seq<string>): (r: set<string>)
    ensures forall x :: x in r <==> x in xs
  {
    set x | x in xs
  }
}

=== FILE: results.dfy ===
/**
  Failure-carrying values shared by the three pipeline scripts.

  Every `raise` of the scripts (and the one crash that the generator hits on
  a malformed dataset entry) becomes an arm of `RunError`; a whole run either
  yields its value or stops with the first error it meets.
 */
module Results {

  datatype Option<+T> = None | Some(value: T) {

    /** The wrapped value, or `default` when there is none (Python's `dict.get`/`os.getenv` default). */
    function GetOr(default: T): T {
      match this
      case Some(v) => v
      case None => default
    }
  }

  /** Why a run stops. */
  datatype RunError =
    | ProjectInfoEmpty                                  // the orchestrator returned no projects
    | DatasetEmpty                                      // the distro-dependency document is empty
    | MissingArchDependencies(project: string)          // a project to build has no dataset entry
    | MissingDependencies(project: string)              // a project to build has an empty dataset entry
    | DatasetEntryUnusable(project: string)             // a third-party dependency's entry is empty, so it has no `replaces`
    | NoBuildCommand(options: map<string, string>)      // no recognised build-system key
    | NoPackageCommand(options: map<string, string>)    // no recognised build-system key

  /** The outcome of a step that may stop the run; usable with `:-`. */
  datatype Result<+T> = Ok(value: T) | Err(error: RunError) {

    predicate IsFailure() {
      Err?
    }

    function PropagateFailure<U>(): Result<U>
      requires Err?
    {
      Err(error)
    }

    function Extract(): T
      requires Ok?
    {
      value
    }
  }
}

=== FILE: text.dfy ===
/**
  String building used by the generators: Python's `startswith`, `str.join`,
  `str(int)` for a natural number, `str.replace("kde:", …)`, and the
  `to_bash_array` rendering of a list as a quoted bash array body, together
  with a reader for that rendering.
 */
module Text {
  import opened Results

  /** Python's `s.startswith(prefix)`. */
  predicate StartsWith(s: string, prefix: string) {
    |prefix| <= |s| && s[..|prefix|] == prefix
  }

  /** Python's `sep.join(parts)`. */
  function Join(sep: string, parts: seq<string>): (r: string)
    ensures |parts| == 0 ==> r == ""
    ensures |parts| == 1 ==> r == parts[0]
    ensures |parts| > 0 ==> StartsWith(r, parts[0])
  {
    if |parts| == 0 then ""
    else if |parts| == 1 then parts[0]
    else parts[0] + sep + Join(sep, parts[1..])
  }

  /** Joining two non-empty runs of parts puts one separator between them. */
  lemma {:induction false} JoinAppend(sep: string, a: seq<string>, b: seq<string>)
    requires |a| > 0 && |b| > 0
    ensures Join(sep, a + b) == Join(sep, a) + sep + Join(sep, b)
    decreases |a|
  {
    if |a| == 1 {
      assert (a + b)[1..] == b;
    } else {
      assert (a + b)[1..] == a[1..] + b;
      JoinAppend(sep, a[1..], b);
    }
  }

  /** A run of parts between a first and a last part is set off by one separator on each side. */
  /** Joining with empty first and last parts opens and closes the text with the separator. */
  lemma JoinFramed(c: char, parts: seq<string>)
    requires |parts| >= 3 && parts[0] == "" && parts[|parts| - 1] == ""
    ensures var r := Join([c], parts); |r| >= 2 && r[0] == c && r[|r| - 1] == c
  {
    var middle := parts[1..|parts| - 1];
    assert parts == [parts[0]] + middle + [parts[|parts| - 1]];
    JoinAround([c], "", middle, "");
    assert Join([c], parts) == "" + [c] + Join([c], middle) + [c] + "";
  }

  /** An inner part of a join stands between two separators. */
  lemma JoinAt(sep: string, parts: seq<string>, k: nat)
    requires 0 < k < |parts| - 1
    ensures Join(sep, parts) == Join(sep, parts[..k]) + sep + parts[k] + sep + Join(sep, parts[k + 1..])
  {
    assert parts == parts[..k] + ([parts[k]] + parts[k + 1..]);
    JoinAppend(sep, [parts[k]], parts[k + 1..]);
    JoinAppend(sep, parts[..k], [parts[k]] + parts[k + 1..]);
  }

  lemma JoinAround(sep: string, first: string, middle: seq<string>, last: string)
    requires |middle| > 0
    ensures Join(sep, [first] + middle + [last]) == first + sep + Join(sep, middle) + sep + last
  {
    JoinAppend(sep, middle, [last]);
    assert [first] + middle + [last] == [first] + (middle + [last]);
    JoinAppend(sep, [first], middle + [last]);
  }

  // ---------------------------------------------------------------------------
  // Bash arrays

  /** `"x"` for `x`: the element form of `to_bash_array`. */
  function Quote(s: string): string {
    "\"" + s + "\""
  }

  function QuoteEach(xs: seq<string>): (r: seq<string>)
    ensures |r| == |xs|
    ensures forall i :: 0 <= i < |xs| ==> r[i] == Quote(xs[i])
  {
    seq(|xs|, i requires 0 <= i < |xs| => Quote(xs[i]))
  }

  /** `to_bash_array`: every element in double quotes, one space between elements. */
  function ToBashArray(xs: seq<string>): (r: string)
    ensures r == "" <==> |xs| == 0
    ensures |xs| > 0 ==> r[0] == '"' && r[|r| - 1] == '"'
  {
    var r := Join(" ", QuoteEach(xs));
    assert |xs| > 0 ==> |r| >= 2 && r[0] == '"' by {
      if |xs| > 0 {
        assert r[..|Quote(xs[0])|] == Quote(xs[0]);
      }
    }
    assert |xs| > 0 ==> r[|r| - 1] == '"' by {
      if |xs| > 0 {
        LastQuoted(xs);
      }
    }
    r
  }

  lemma {:induction false} LastQuoted(xs: seq<string>)
    requires |xs| > 0
    ensures var r := Join(" ", QuoteEach(xs)); |r| >= 2 && r[|r| - 1] == '"'
    decreases |xs|
  {
    if |xs| > 1 {
      assert QuoteEach(xs)[1..] == QuoteEach(xs[1..]);
      LastQuoted(xs[1..]);
    }
  }

  /** No element contains a double quote, so each can be quoted unambiguously. */
  predicate QuoteFree(xs: seq<string>) {
    forall i :: 0 <= i < |xs| ==> '"' !in xs[i]
  }

  /** Index of the first double quote at or after `i`, or `|s|` when there is none. */
  function QuoteEnd(s: string, i: nat): (j: nat)
    requires i <= |s|
    ensures i <= j <= |s|
    ensures forall k :: i <= k < j ==> s[k] != '"'
    ensures j < |s| ==> s[j] == '"'
    decreases |s| - i
  {
    if i == |s| || s[i] == '"' then i else QuoteEnd(s, i + 1)
  }

  /** Reads a non-empty bash array body of double-quoted words separated by single spaces. */
  function ParseWords(s: string): Option<seq<string>>
    decreases |s|
  {
    if |s| == 0 || s[0] != '"' then None
    else
      var j := QuoteEnd(s, 1);
      if j == |s| then None
      else if j + 1 == |s| then Some([s[1..j]])
      else if s[j + 1] != ' ' then None
      else
        match ParseWords(s[j + 2..])
        case None => None
        case Some(ws) => Some([s[1..j]] + ws)
  }

  /** Reads a bash array body as `to_bash_array` writes it; `None` for anything else. */
  function ParseBashArray(s: string): Option<seq<string>> {
    if s == "" then Some([]) else ParseWords(s)
  }

  /** Reading back what `to_bash_array` wrote yields the same elements, in order. */
  lemma BashArrayRoundTrip(xs: seq<string>)
    requires QuoteFree(xs)
    ensures ParseBashArray(ToBashArray(xs)) == Some(xs)
  {
    if |xs| > 0 {
      WordsRoundTrip(xs);
    }
  }

  lemma {:induction false} WordsRoundTrip(xs: seq<string>)
    requires |xs| > 0 && QuoteFree(xs)
    ensures ParseWords(Join(" ", QuoteEach(xs))) == Some(xs)
    decreases |xs|
  {
    var s := Join(" ", QuoteEach(xs));
    var x := xs[0];
    var n := |x| + 1;
    assert s[..n + 1] == Quote(x);
    assert forall k :: 1 <= k < n ==> s[k] == x[k - 1];
    assert '"' !in x;
    assert s[n] == '"';
    assert QuoteEnd(s, 1) == n;
    assert s[1..n] == x;
    if |xs| == 1 {
      assert |s| == n + 1;
      assert ParseWords(s) == Some([x]);
      assert [x] == xs;
    } else {
      var rest := Join(" ", QuoteEach(xs[1..]));
      assert QuoteEach(xs)[1..] == QuoteEach(xs[1..]);
      assert s == Quote(x) + " " + rest;
      assert s[n + 1] == ' ';
      assert s[n + 2..] == rest;
      assert QuoteFree(xs[1..]) by {
        forall i | 0 <= i < |xs[1..]|
          ensures '"' !in xs[1..][i]
        {
          assert xs[1..][i] == xs[i + 1];
        }
      }
      WordsRoundTrip(xs[1..]);
      assert ParseWords(s) == Some([x] + xs[1..]);
      assert [x] + xs[1..] == xs;
    }
  }

  // ---------------------------------------------------------------------------
  // Decimal numbers

  predicate IsDigit(c: char) {
    '0' <= c <= '9'
  }

  function DigitChar(d: nat): (c: char)
    requires d < 10
    ensures IsDigit(c)
  {
    (48 + d) as char
  }

  function DigitValue(c: char): (d: nat)
    requires IsDigit(c)
    ensures d < 10
  {
    c as int - 48
  }

  /** Python's `str(n)` for a natural number: decimal digits, no leading zero. */
  function DecimalString(n: nat): (s: string)
    ensures |s| > 0
    ensures forall i :: 0 <= i < |s| ==> IsDigit(s[i])
    ensures |s| > 1 ==> s[0] != '0'
  {
    if n < 10 then [DigitChar(n)] else DecimalString(n / 10) + [DigitChar(n % 10)]
  }

  /** The number a string of decimal digits denotes. */
  function DecimalValue(s: string): nat
    requires forall i :: 0 <= i < |s| ==> IsDigit(s[i])
  {
    if |s| == 0 then 0 else 10 * DecimalValue(s[..|s| - 1]) + DigitValue(s[|s| - 1])
  }

  lemma {:induction false} DecimalRoundTrip(n: nat)
    ensures DecimalValue(DecimalString(n)) == n
  {
    var s := DecimalString(n);
    if n >= 10 {
      assert s[..|s| - 1] == DecimalString(n / 10);
      DecimalRoundTrip(n / 10);
    }
  }

  // ---------------------------------------------------------------------------
  // Repository locators

  /** The short-form scheme of a repository hosted by the project itself. */
  const KdeScheme: string := "kde:"

  /** What the short-form scheme stands for. */
  const InventBase: string := "https://invent.kde.org/"

  /** The short-form scheme occurs in `s` at index `i`. */
  predicate SchemeAt(s: string, i: int) {
    0 <= i && i + |KdeScheme| <= |s| && s[i..i + |KdeScheme|] == KdeScheme
  }

  ghost predicate ContainsKdeScheme(s: string) {
    exists i :: SchemeAt(s, i)
  }

  /** `s.replace("kde:", "https://invent.kde.org/")`: every occurrence, left to right, without overlap. */
  function ExpandLocator(s: string): string
    decreases |s|
  {
    if |s| == 0 then ""
    else if StartsWith(s, KdeScheme) then InventBase + ExpandLocator(s[|KdeScheme|..])
    else [s[0]] + ExpandLocator(s[1..])
  }

  /** A locator that mentions no short-form scheme is left alone. */
  lemma {:induction false} ExpandLocatorIdentity(s: string)
    requires !ContainsKdeScheme(s)
    ensures ExpandLocator(s) == s
    decreases |s|
  {
    if |s| > 0 {
      assert !SchemeAt(s, 0);
      forall i
        ensures !SchemeAt(s[1..], i)
      {
        assert !SchemeAt(s, i + 1);
        if 0 <= i && i + |KdeScheme| <= |s[1..]| {
          assert s[1..][i..i + |KdeScheme|] == s[i + 1..i + 1 + |KdeScheme|];
        }
      }
      ExpandLocatorIdentity(s[1..]);
    }
  }

  /** Dropping the first character of a scheme-free string keeps it scheme-free. */
  lemma NoSchemeTail(s: string)
    requires |s| > 0 && !ContainsKdeScheme(s)
    ensures !ContainsKdeScheme(s[1..])
  {
    forall i
      ensures !SchemeAt(s[1..], i)
    {
      assert !SchemeAt(s, i + 1);
      if 0 <= i && i + |KdeScheme| <= |s[1..]| {
        assert s[1..][i..i + |KdeScheme|] == s[i + 1..i + 1 + |KdeScheme|];
      }
    }
  }

  /**
    No occurrence of the scheme straddles a non-empty scheme-free stretch
    and the scheme after it, because no proper prefix of `kde:` is also its
    suffix.
   */
  lemma NoSchemeBefore(a: string, b: string)
    requires |a| > 0 && !ContainsKdeScheme(a)
    ensures !StartsWith(a + KdeScheme + b, KdeScheme)
  {
    var s := a + KdeScheme + b;
    if |a| >= |KdeScheme| {
      assert s[..|KdeScheme|] == a[..|KdeScheme|];
      assert !SchemeAt(a, 0);
    } else {
      assert s[|a|] == KdeScheme[0];
      assert KdeScheme[|a|] != KdeScheme[0];
    }
  }

  /** The scheme at the front is replaced and the rest expanded. */
  lemma ExpandAtScheme(b: string)
    ensures ExpandLocator(KdeScheme + b) == InventBase + ExpandLocator(b)
  {
    var s := KdeScheme + b;
    assert StartsWith(s, KdeScheme) && s[|KdeScheme|..] == b;
  }

  /** Any other first character is kept and the rest expanded. */
  lemma ExpandPlainStep(s: string)
    requires |s| > 0 && !StartsWith(s, KdeScheme)
    ensures ExpandLocator(s) == [s[0]] + ExpandLocator(s[1..])
  {
  }

  /**
    One scheme-free character in front of the scheme is copied: if the
    shorter locator expands to `a[1..] + e`, the longer one expands to `a + e`.
   */
  lemma ExpandCopiesPlain(a: string, b: string, e: string)
    requires |a| > 0 && !ContainsKdeScheme(a)
    requires ExpandLocator(a[1..] + KdeScheme + b) == a[1..] + e
    ensures ExpandLocator(a + KdeScheme + b) == a + e
  {
    var s := a + KdeScheme + b;
    NoSchemeBefore(a, b);
    assert s[0] == a[0] && s[1..] == a[1..] + KdeScheme + b;
    ExpandPlainStep(s);
    assert [a[0]] + (a[1..] + e) == a + e;
  }

  /** Regrouping a concatenation of three strings. */
  lemma Regroup(x: string, y: string, z: string)
    ensures x + y + z == x + (y + z)
  {
  }

  /** The base case: the scheme at the very front. */
  lemma ExpandSplitEmpty(a: string, b: string)
    requires |a| == 0
    ensures ExpandLocator(a + KdeScheme + b) == a + InventBase + ExpandLocator(b)
  {
    assert a + KdeScheme + b == KdeScheme + b;
    ExpandAtScheme(b);
  }

  /**
    Every occurrence is replaced, not just the first: the scheme after a
    scheme-free stretch `a` becomes the forge base, and the replacement
    carries on through the rest of the locator.
   */
  lemma {:induction false} ExpandLocatorSplit(a: string, b: string)
    requires !ContainsKdeScheme(a)
    ensures ExpandLocator(a + KdeScheme + b) == a + InventBase + ExpandLocator(b)
    decreases |a|
  {
    if |a| == 0 {
      ExpandSplitEmpty(a, b);
    } else {
      var e := InventBase + ExpandLocator(b);
      NoSchemeTail(a);
      ExpandLocatorSplit(a[1..], b);
      Regroup(a[1..], InventBase, ExpandLocator(b));
      ExpandCopiesPlain(a, b, e);
      Regroup(a, InventBase, ExpandLocator(b));
    }
  }

  /** A short-form locator `kde:path` becomes the full forge URL of `path`. */
  lemma ExpandShortLocator(path: string)
    requires !ContainsKdeScheme(path)
    ensures ExpandLocator(KdeScheme + path) == InventBase + path
  {
    var s := KdeScheme + path;
    assert StartsWith(s, KdeScheme);
    assert s[|KdeScheme|..] == path;
    ExpandLocatorIdentity(path);
  }
}
